=== FILE: README.md ===
# Animal recognition: a verified model of the decision logic

The repository is an animal-recognition toolkit. It has three parts:

- a desktop app (`demo.py`) that recognises an uploaded picture, unlocks animals and runs a picture quiz;
- a batch script (`predict.py`) that classifies every picture under a directory and writes a report;
- a training script (`train.py`).

All three are built around an opaque image classifier. This project models the pure decision logic around that classifier in Dafny and proves what the code promises about it. The logic covers:

- ranking the classifier's confidences and naming the top entries;
- the recognition counter and the unlock rule;
- the error exits of a recognition;
- the quiz: round selection, option generation and answer scoring;
- the saved progress;
- the normalisation of every image mode to RGB;
- the batch script's file filter, label file and report rows;
- the training script's learning-rate schedule and per-class main-misclassification rule.

Modules, one file each:

- `Wrappers` holds `Option` and `Result`.
- `Text` holds the Python string operations used: `strip`, `readlines`, `lower`, `endswith` and `str(int)`. It also holds the label-file parser.
- `Ranking` holds the relational argsort contract, one argsort algorithm, top-k ranking, `argmax` and index labels.
- `Imaging` holds PIL modes, channel normalisation and the tensor shape check.
- `Progress` holds the statistics and the unlocked set, in memory and on disk.
- `Recognition` holds model loading, upload, `start_recognition` and `perform_recognition`.
- `Quiz` holds `start_game`, option generation, shuffling and `check_answer`.
- `Batch` covers `predict.py`.
- `Training` covers the two helpers of `train.py`.

Every opaque part is a parameter of the model:

- The classifier is a function from an image (or a path) to a sequence of reals. In the batch script it returns an `Option`: `None` stands for a picture `image.load_img` cannot open.
- `np.argsort` is any function meeting `Ranking.IsArgsort`. Its order among equal confidences is unspecified because the sort is not stable.
- `random.sample`, `random.choice` and `random.shuffle` are given as sequences of positions, draws and a permutation.
- The outcome of loading the model is a `LoadAttempt` value.
- `math.exp` is a function parameter.
- The JSON files are a `Disk` value. It is rewritten exactly where the code calls a `save_*` function.

## Model

| member | source | states |
|---|---|---|
| Text.Strip | predict.py:37 | the stripped line starts right after the leading whitespace, is followed only by whitespace, and has no whitespace at either end |
| Text.StripIdempotent | demo.py:455 | stripping an already stripped label changes nothing |
| Text.ReadLines | predict.py:37 | the lines concatenate back to the file text, every line but the last ends in its line break, and no line holds an inner break |
| Text.ParseLabels | predict.py:35-37 | one label per line of the file, each one the stripped line |
| Text.LabelFileRoundTrip | predict.py:35-37 | labels without surrounding whitespace or line breaks, written one per line, are read back exactly, blank labels included |
| Text.BlankLineKept | predict.py:37 | a blank line in the label file becomes an empty label rather than being dropped |
| Text.Lower | predict.py:50 | lower-casing keeps the length, leaves no ASCII capital, turns each capital into its small letter, and keeps every other character in place |
| Text.LowerIdempotent | predict.py:50 | lower-casing an already lower-cased name changes nothing |
| Text.NatToString | predict.py:78 | `str(idx)` is a non-empty digit string without a leading zero |
| Text.DecimalRoundTrip | predict.py:89 | reading the digits of `str(idx)` gives back `idx` |
| Text.NatToStringInjective | demo.py:758 | different indices get different numeric labels |
| Ranking.Argsort | demo.py:753 | an argsort exists for every confidence vector: a permutation of the indices in non-decreasing confidence order |
| Ranking.TopIndices | demo.py:753 | `argsort(p)[::-1][:k]` keeps min(k, N) entries, all taken from the argsort; `Ranking.TopIndicesRanked` states that they form a top-k ranking |
| Ranking.TopIndicesRanked | demo.py:753 | reversing any argsort and keeping three entries gives min(3, N) distinct indices in non-increasing confidence, none beaten by an index left out |
| Ranking.TopFirstIsMaximal | demo.py:753 | the first index of a top ranking has the maximum confidence |
| Ranking.ArgMax | predict.py:71 | `np.argmax` is an index whose confidence is the maximum, and every earlier index is strictly smaller |
| Ranking.ArgMaxAgreesWithTop | predict.py:71-98 | the argmax and the first entry of a top ranking carry the same confidence, and they are the same index when the maximum is unique |
| Ranking.LabelFor | demo.py:757-758 | the label of an index is the list entry when the list reaches it, otherwise digits whose value is the index |
| Imaging.ProcessChannels | demo.py:419-432 | every mode becomes RGB with the size kept, and an RGB picture is returned unchanged |
| Imaging.ProcessChannelsIdempotent | demo.py:419-432 | normalising a normalised picture changes nothing |
| Imaging.ModelInput | demo.py:741-749 | the shape check passes exactly for three-channel modes; a refusal names the actual shape (1, 456, 456, channels) and the expected shape |
| Imaging.ProcessedPassesShapeCheck | demo.py:741-749 | a picture that went through channel normalisation always passes the shape check |
| Imaging.GrayscaleRefused | demo.py:746-749 | a grayscale picture that skipped normalisation is refused with shape (1, 456, 456, 1) |
| Progress.LoadUnlocked | demo.py:460-469 | a stored list loads as its set, and a missing or unreadable file loads as the empty set |
| Progress.LoadStats | demo.py:480-487 | a stored record loads as itself, and a missing or unreadable file leaves the zero record |
| Progress.Startup | demo.py:460-487 | the in-memory progress at start is what the two files hold |
| Progress.SaveUnlocked | demo.py:471-478 | saving writes the current set and changes nothing in memory or in the statistics file |
| Progress.SaveStats | demo.py:489-498 | saving sets `animals_unlocked` to the size of the unlocked set, keeps both counters, and writes the record so it loads back unchanged |
| Progress.SavedProgressSurvivesRestart | demo.py:460-498 | after saving both files, a restart reads back exactly the saved progress |
| Progress.SaveStatsIdempotent | demo.py:489-498 | saving the statistics twice writes the same as saving them once |
| Recognition.LoadModel | demo.py:434-449 | only a full success makes an unloaded model usable; a failed deserialisation changes nothing; a failed compilation leaves a model present but not loaded |
| Recognition.Init | demo.py:70-104 | the app starts from the saved progress with no picture selected, its model is usable exactly when the first load succeeds, and its labels are exactly the parsed class file (one stripped entry per line), or none when that file is missing |
| Recognition.UploadImage | demo.py:634-675 | a cancelled dialog changes nothing; an unreadable picture clears the selection and disables the trigger; otherwise the normalised picture is kept and the trigger enabled |
| Recognition.StartRecognition | demo.py:698-721 | without a picture nothing happens; otherwise the trigger is disabled, `total_recognitions` goes up by exactly one, and the statistics are saved; the unlocked set, labels, current path, picture and model are kept |
| Recognition.ResultLines | demo.py:756-760 | one result line per ranked index, carrying that index's label and confidence |
| Recognition.UnlockTop | demo.py:763-772 | the winner's label is added exactly when the list reaches the winning index and the label is new; only then are both files saved; the set never shrinks |
| Recognition.PerformRecognition | demo.py:726-778 | the trigger comes back on; an unusable model gets one reload and stays an error iff it is still unusable; an error leaves the progress unchanged; success lists min(3, N) lines; the unlocked set never shrinks |
| Recognition.ReloadFailureIsError | demo.py:730-735 | still unusable after the single reload: the outcome is an error, the progress is unchanged and the classifier is never consulted |
| Recognition.ShapeMismatchIsError | demo.py:746-749 | a tensor other than (1, 456, 456, 3) is refused with both shapes, with the progress unchanged and the classifier never consulted |
| Recognition.ValidAppPassesShapeCheck | demo.py:650 | in every reachable state the picture has been normalised, so the shape check never fires |
| Recognition.RecognitionUnfold | demo.py:741-775 | the successful path is the top-3 ranking of the classifier's output followed by the unlock rule |
| Recognition.RecognitionRanking | demo.py:752-760 | a successful recognition lists a top-3 ranking, each line labelled through the label list, and its first line has the maximum confidence |
| Recognition.RecognitionUnlock | demo.py:763-772 | the unlocked set grows by exactly the winner's label when the list reaches the winning index and is otherwise unchanged; files are written only for a new label, and the count then matches the set |
| Recognition.CatDogFoxExample | demo.py:752-772 | confidences 0.1, 0.7, 0.2 for cat, dog, fox give the lines dog, fox, cat under every argsort and unlock dog |
| Recognition.Recognize | demo.py:698-778 | a press with a picture raises the recognition counter by exactly one whatever happens next, keeps the correct-guess counter, and never shrinks the unlocked set |
| Quiz.StartGame | demo.py:888-898 | a round is refused iff there are fewer labels than asked for; otherwise it holds the sampled labels with index 0 and score 0 |
| Quiz.StartGameDistinct | demo.py:895 | with a repeat-free label list, a round never asks about one animal twice |
| Quiz.StartedRoundIsPlaying | demo.py:895-898 | a fresh round of at least one question is in progress |
| Quiz.Collect | demo.py:990-997 | the loop keeps the options it already has and only ever adds distinct wrong answers after the correct one; a finished loop has exactly four options, and it fails only when the draws run out |
| Quiz.GenerateOptionsAsWritten | demo.py:988-997 | the code's guard gives up iff the label list has fewer than four entries |
| Quiz.CompletionNeedsThreeAlternatives | demo.py:990-997 | four collected options need at least three labels different from the answer |
| Quiz.AsWrittenStalls | demo.py:990-997 | with four or more entries but fewer than three labels other than the answer, the code's guard passes and no sequence of draws finishes the loop |
| Quiz.BlankLinesFile | demo.py:453-455 | a class file with lines `cat`, `dog` and three blank lines reads as five labels, three of them empty |
| Quiz.AsWrittenNeverFinishes | demo.py:990-997 | the labels `cat`, `dog` and three blank ones start a round of five, and a question about `cat` never finishes its options |
| Quiz.CorrectionDiffersOnlyWhereCodeLoops | demo.py:990-997 | for an answer from the label list, the corrected option builder differs from the code only where the code's loop never ends |
| Quiz.GenerateOptions | demo.py:988-997 | with the corrected guard: give up iff fewer than three labels differ from the answer; otherwise four distinct options, the answer and three other labels |
| Quiz.GenerateOptionsCanFinish | demo.py:990-997 | whenever the corrected guard lets the loop start, some three draws finish it |
| Quiz.GenerateOptionsFinishesIff | demo.py:990-997 | the corrected loop can finish iff it does not give up at once |
| Quiz.CorrectionAgreesOnSoundInputs | demo.py:990-997 | the corrected guard agrees with the code wherever the code finishes, and also whenever the answer is a listed label with three alternatives |
| Quiz.Shuffle | demo.py:999 | shuffling keeps the length, the members and their distinctness |
| Quiz.ShowQuestion | demo.py:988-1000 | a question records the current animal as the answer and shows four distinct options containing it, the others drawn from the labels; round, index and score are kept; it reports that options ran out iff fewer than three other labels exist (see Left out) |
| Quiz.CheckAnswer | demo.py:1027-1047 | a correct answer adds one to the score and the correct guesses and unlocks the animal, saving both files; a wrong one changes none of these; the index always advances by one, and the round ends iff it reaches the number of animals |
| Quiz.AnswerKeepsRound | demo.py:1041-1047 | answering in a round in progress either leads to a valid next question or ends exactly after the last one, never with more points than questions |
| Batch.LoadLabels | predict.py:35-41 | a missing label file gives no list; a present one gives its stripped lines |
| Batch.BatchLabel | predict.py:75-78 | a label comes from the list only when the list exists and reaches the index; otherwise it is the index's digits |
| Batch.BatchLabelAgreesWithApp | predict.py:86-89 | the batch script and the desktop app label every index the same way |
| Batch.HasImageExtension | predict.py:50 | a file is picked when its lower-cased name ends in one of the five picture extensions; `Batch.ExtensionAfterLastDot` restates this on the text after the last dot |
| Batch.LastDotSuffix | predict.py:50 | the extension is the text after the last dot, which holds no dot |
| Batch.ExtensionAfterLastDot | predict.py:44-50 | a file is picked iff the text after the last dot of its lower-cased name is jpg, jpeg, png, bmp or gif |
| Batch.ExtensionIgnoresCase | predict.py:50 | upper- and mixed-case picture extensions are picked like lower-case ones |
| Batch.TextFileNotPicked | predict.py:44-50 | a file ending in `.txt` is not picked |
| Batch.JoinKeepsExtension | predict.py:51 | joining a picked file name to its directory keeps the picture extension |
| Batch.PickFiles | predict.py:49-51 | a directory contributes at most one path per file |
| Batch.PickedIffListed | predict.py:49-51 | a path is picked from a directory iff it is a file of the listing with a picture extension joined to the directory: every picture file is picked and nothing else is |
| Batch.PickedArePictures | predict.py:49-51 | every picked path has a picture extension |
| Batch.PickedNoneIff | predict.py:49-51 | a directory contributes nothing iff none of its files has a picture extension |
| Batch.PickFilesIsFilter | predict.py:49-51 | a directory's listing is filtered file by file, in listing order: one file gives its joined path iff it has a picture extension, and a split listing gives the concatenated results |
| Batch.Discover | predict.py:47-51 | `image_files`: each walked directory's picks, one directory after the other; its meaning is stated by `Batch.DiscoveredIffWalked`, `Batch.DiscoverOfOne` and `Batch.DiscoverFollowsWalk` |
| Batch.DiscoveredIffWalked | predict.py:47-51 | a path is discovered iff it is a picture file of some walked directory joined to that directory: no picture is missed and nothing is invented |
| Batch.DiscoveredArePictures | predict.py:47-51 | every discovered path has a picture extension |
| Batch.DiscoveredNoneIff | predict.py:47-55 | discovery is empty, and the script exits, iff no walked file has a picture extension |
| Batch.DiscoverOfOne | predict.py:48-51 | a walk of one directory discovers exactly that directory's picks |
| Batch.DiscoverFollowsWalk | predict.py:47-51 | discovery visits the walk in order: the discovery of two walks one after the other is the discovery of each, concatenated |
| Batch.PredictRow | predict.py:70-103 | a row carries its own path, its confidence is its top-1 confidence, and the three top confidences do not increase |
| Batch.PredictRowPredicted | predict.py:70-78 | `predicted_class` labels the first largest output, and `confidence` is that output, which no other exceeds |
| Batch.PredictRowTopColumns | predict.py:81-102 | the top columns are a top-3 ranking of three distinct indices, each with its own label and confidence |
| Batch.PredictedAndTopMayDiffer | predict.py:71-97 | with tied maxima, `predicted_class` (the first maximum) and `top1_class` (the last tied maximum once a stable ascending order is reversed) name different classes while the confidences still agree |
| Batch.PredictAll | predict.py:60-105 | the report exists iff every picture opens and its output has at least three entries; otherwise the run stops at a listed file that cannot be opened (`UnreadableImage`) or whose output is narrower (`NarrowOutput`) |
| Batch.PredictAllRows | predict.py:60-105 | a finished report has exactly one row per file, in order, each the row computed from that file's output |
| Batch.StopsAtFirstFailure | predict.py:63-102 | a run without a report stops at the first file that cannot be opened or whose output has fewer than three entries (an empty output fails the same way, at `np.argmax`) |
| Batch.ReportRows | predict.py:93-105 | every row of a finished report carries its own file's path, a predicted confidence equal to the top-1 one, and top-3 confidences in descending order |
| Batch.RunBatch | predict.py:22-105 | a failed model load or no discovered picture ends the run without a report; otherwise a report exists iff every discovered picture opens and gives at least three outputs, and it has one row per discovered picture, in discovery order |
| Training.LrSchedule | train.py:90-103 | with a non-negative initial rate, every rate before epoch 10 lies between 0 and the initial rate |
| Training.WarmupEndsAtInitial | train.py:95-97 | the warm-up rates are one, two and three thirds of the initial rate, so epoch 2 already uses it |
| Training.PlateauIsInitial | train.py:98-100 | epochs 3 to 9 use exactly the initial rate |
| Training.ScheduleRises | train.py:95-100 | over epochs 0 to 9 the rate never decreases |
| Training.DecayStartsAtInitial | train.py:101-103 | since exp(0) = 1, epoch 10 uses the initial rate, the same as epoch 9 |
| Training.NeverAboveInitial | train.py:90-103 | if exp maps non-positive arguments into [0, 1], no epoch uses a rate above the initial one |
| Training.EntryAtMostSum | train.py:261 | a single count never exceeds the row sum |
| Training.SumZeroIff | train.py:257 | the sum of counts is zero iff every count is zero |
| Training.MainError | train.py:255-265 | without off-diagonal errors, the report is "无错误" with count 0 and percentage 0; otherwise it names the first index of the largest off-diagonal count, never the class itself, and its share lies in (0, 100] percent |
| Training.FirstLargestError | train.py:255-258 | `argmax` of the row with its diagonal zeroed is an off-diagonal index whose positive count is at least every other off-diagonal count, with ties going to the first |
| Training.SingleMistakeExample | train.py:255-265 | a row whose only error goes to dog names dog at 100 percent, and a row without errors reports "无错误" |

## Left out

- The Tkinter interface is left out: layout, styles, animations, particles, the zoo grid, message boxes and status texts. It is presentation only.
- The worker thread and the `root.after` hand-off are left out. A recognition is the step that follows `StartRecognition`.
- TensorFlow model loading, compilation and `model.predict` are opaque foreign calls. They become `LoadAttempt` and the `classify` parameter.
- PIL decoding, pixel values, `img_to_array`, rounded corners and thumbnails are left out. An image is its mode and size.
- JSON encoding, file I/O errors on save, and the `last_played` timestamp are left out. A saved file is a value that always reads back.
- A statistics file that parses but lacks a key is left out. That case would make the next counter update raise.
- Floating-point numbers are modelled as reals, so float rounding is not modelled. `math.exp` keeps only the properties a lemma assumes.
- The percent formatting of confidences in the result text is left out.
- The training loop, augmentation, callbacks, plots and spreadsheet output are left out. So are the precision, recall and F1 columns, which come from the library report.
- `Training.MainError` takes the confusion-matrix row with one entry per label. A matrix missing some labels would make the code index the wrong row or fail. That case is not modelled.
- `Text.Lower` lower-cases ASCII letters only. Python's Unicode case mapping is not modelled, and it does not affect the five ASCII extensions.
- `Text.ReadLines` splits on `\n` only. Universal-newline translation of `\r` and `\r\n` on reading is not modelled. A `\r` left before the break is removed by `strip` anyway.
- `Batch.Join` models `os.path.join` for a file name without a separator. The file names `os.walk` yields are such names.
- Exceptions from the classifier inside `perform_recognition` are not modelled. The error exit is modelled only for the case of no processed picture.
- The batch script's `exit(1)` calls become error results.
- The written CSV and spreadsheet are left out. The report is the sequence of rows.
- `np.argsort` is not stable and the code adds no tie-break, so equal confidences keep whatever order it returns.
- `load_unlocked_animals` keeps every stored label, whether or not it is in the label list.
- `predict.py` has no `try` around a picture, so the first exception ends the run.
- Quiz.ShowQuestion: uses the corrected guard of the Findings table. Where the code's option loop never ends, it returns `NotEnoughOptions`; `Quiz.CorrectionDiffersOnlyWhereCodeLoops` shows these are the only inputs where the two differ.

## Findings

| source | as written | input that shows it | evidently intended | confidence | as-written member | corrected member |
|---|---|---|---|---|---|---|
| demo.py:990-997 | the option loop gives up only when `len(self.class_names) < 4`, a count of entries including the answer and repeats | a class file with lines `cat`, `dog` and three blank lines: a round of five starts (the label list has five entries), and for answer `"cat"` the guard passes but only two other labels exist, so the loop never ends | give up when fewer than three labels differ from the answer, so the loop can always finish | not executed | Quiz.AsWrittenNeverFinishes | Quiz.GenerateOptionsFinishesIff |

=== FILE: batch.dfy ===
/**
 * The batch prediction script: read the optional label file, walk the image
 * directory for files with a picture extension, and build one report row per
 * file from the classifier's output. The directory walk, the classifier and
 * the argsort are parameters.
 */
module Batch {
  import opened Wrappers
  import opened Text
  import opened Ranking

  // ------------------------------------------------------------ labels

  /**
   * The module-level label loading: a missing file gives `None`, which makes
   * every label the printed index.
   */
  function LoadLabels(file: Option<string>): (names: Option<seq<string>>)
    ensures file.None? <==> names.None?
    ensures file.Some? ==> names.value == ParseLabels(file.value)
  {
    match file
    case None => None
    case Some(text) => Some(ParseLabels(text))
  }

  /**
   * `class_names[idx] if class_names and len(class_names) > idx else str(idx)`:
   * a label only from a present, non-empty list that reaches `idx`.
   */
  function BatchLabel(names: Option<seq<string>>, idx: nat): (l: string)
    ensures names.Some? && idx < |names.value| ==> l == names.value[idx]
    ensures names.None? || idx >= |names.value| ==>
              (forall i :: 0 <= i < |l| ==> IsDigit(l[i])) && DecimalValue(l) == idx
  {
    if names.Some? && |names.value| > 0 && |names.value| > idx then names.value[idx]
    else
      DecimalRoundTrip(idx);
      NatToString(idx)
  }

  /** The batch script and the desktop app name every index the same way. */
  lemma BatchLabelAgreesWithApp(names: seq<string>, idx: nat)
    ensures BatchLabel(Some(names), idx) == LabelFor(names, idx)
    ensures BatchLabel(None, idx) == LabelFor([], idx)
  {
  }

  // ------------------------------------------------------------ discovery

  const ImageExtensions: seq<string> := [".jpg", ".jpeg", ".png", ".bmp", ".gif"]

  /** `any(s.endswith(ext) for ext in exts)`, one extension at a time. */
  predicate AnyEndsWith(s: string, exts: seq<string>) {
    |exts| > 0 && (EndsWith(s, exts[0]) || AnyEndsWith(s, exts[1..]))
  }

  lemma {:induction false} AnyEndsWithIff(s: string, exts: seq<string>)
    ensures AnyEndsWith(s, exts) <==> exists i :: 0 <= i < |exts| && EndsWith(s, exts[i])
  {
    if |exts| > 0 {
      AnyEndsWithIff(s, exts[1..]);
      assert forall i :: 1 <= i < |exts| ==> exts[i] == exts[1..][i - 1];
    }
  }

  /** `any(file.lower().endswith(ext) for ext in image_extensions)`. */
  predicate HasImageExtension(name: string) {
    AnyEndsWith(Lower(name), ImageExtensions)
  }

  /** The text after the last dot of `s`, or `None` when `s` has no dot. */
  function LastDotSuffix(s: string): (e: Option<string>)
    ensures e.None? ==> forall i :: 0 <= i < |s| ==> s[i] != '.'
    ensures e.Some? ==> EndsWith(s, "." + e.value) && forall i :: 0 <= i < |e.value| ==> e.value[i] != '.'
  {
    if |s| == 0 then None
    else if s[|s| - 1] == '.' then Some([])
    else match LastDotSuffix(s[..|s| - 1])
      case None => None
      case Some(x) =>
        assert s[..|s| - 1] + [s[|s| - 1]] == s;
        Some(x + [s[|s| - 1]])
  }

  lemma {:induction false} LastDotSuffixOf(s: string, x: string)
    requires forall i :: 0 <= i < |x| ==> x[i] != '.'
    requires EndsWith(s, "." + x)
    ensures LastDotSuffix(s) == Some(x)
    decreases |x|
  {
    if |x| > 0 {
      var s' := s[..|s| - 1];
      var x' := x[..|x| - 1];
      assert s'[|s'| - |"." + x'|..] == ("." + x)[..|x|];
      LastDotSuffixOf(s', x');
      assert x' + [x[|x| - 1]] == x;
    }
  }

  /**
   * The filter, restated on the extension: a file is picked exactly when the
   * text after the last dot of its lower-cased name is jpg, jpeg, png, bmp
   * or gif.
   */
  lemma ExtensionAfterLastDot(name: string)
    ensures HasImageExtension(name) <==>
              (var e := LastDotSuffix(Lower(name)); e.Some? && e.value in ["jpg", "jpeg", "png", "bmp", "gif"])
  {
    var s := Lower(name);
    var bare := ["jpg", "jpeg", "png", "bmp", "gif"];
    forall i | 0 <= i < 5
      ensures ImageExtensions[i] == "." + bare[i]
      ensures forall k :: 0 <= k < |bare[i]| ==> bare[i][k] != '.'
    {
    }
    AnyEndsWithIff(s, ImageExtensions);
    if HasImageExtension(name) {
      var i :| 0 <= i < |ImageExtensions| && EndsWith(s, ImageExtensions[i]);
      LastDotSuffixOf(s, bare[i]);
    }
    var e := LastDotSuffix(s);
    if e.Some? && e.value in bare {
      var i :| 0 <= i < 5 && bare[i] == e.value;
      assert EndsWith(s, ImageExtensions[i]);
    }
  }

  lemma PickedBySuffix(stem: string, ext: string, i: nat)
    requires i < |ImageExtensions| && Lower(ext) == ImageExtensions[i]
    ensures HasImageExtension(stem + ext)
  {
    LowerConcat(stem, ext);
    assert EndsWith(Lower(stem + ext), ImageExtensions[i]);
    AnyEndsWithIff(Lower(stem + ext), ImageExtensions);
  }

  /** Upper- and lower-case extensions are picked alike. */
  lemma ExtensionIgnoresCase(stem: string)
    ensures HasImageExtension(stem + ".JPG") && HasImageExtension(stem + ".jpg")
    ensures HasImageExtension(stem + ".Png") && HasImageExtension(stem + ".GIF")
  {
    assert Lower(".JPG") == ".jpg" by { assert Lower(".JPG")[1] == 'j'; }
    PickedBySuffix(stem, ".JPG", 0);
    assert Lower(".jpg") == ".jpg";
    PickedBySuffix(stem, ".jpg", 0);
    assert Lower(".Png") == ".png" by { assert Lower(".Png")[1] == 'p'; }
    PickedBySuffix(stem, ".Png", 2);
    assert Lower(".GIF") == ".gif" by { assert Lower(".GIF")[1] == 'g'; }
    PickedBySuffix(stem, ".GIF", 4);
  }

  /** A file whose extension is not a picture extension is not picked. */
  lemma TextFileNotPicked(stem: string)
    ensures !HasImageExtension(stem + ".txt")
  {
    var t := stem + ".txt";
    LowerConcat(stem, ".txt");
    assert Lower(".txt") == ".txt" by {
      assert forall k :: 0 <= k < 4 ==> Lower(".txt")[k] == ".txt"[k];
    }
    LastDotSuffixOf(Lower(t), "txt");
    ExtensionAfterLastDot(t);
  }

  /** `os.path.join(root, file)` for a file name without a separator. */
  function Join(root: string, file: string): (p: string)
    ensures EndsWith(p, file)
  {
    if root == "" then file
    else if root[|root| - 1] == '/' then root + file
    else root + "/" + file
  }

  /** A path built from a picked file name still has a picture extension. */
  lemma JoinKeepsExtension(root: string, file: string)
    requires HasImageExtension(file)
    ensures HasImageExtension(Join(root, file))
  {
    var p := Join(root, file);
    var pre := p[..|p| - |file|];
    assert p == pre + file;
    LowerConcat(pre, file);
    AnyEndsWithExtends(Lower(pre), Lower(file), ImageExtensions);
  }

  /** A text ending in one of the suffixes still does after something is put in front. */
  lemma {:induction false} AnyEndsWithExtends(pre: string, s: string, exts: seq<string>)
    requires AnyEndsWith(s, exts)
    ensures AnyEndsWith(pre + s, exts)
  {
    if EndsWith(s, exts[0]) {
      var t := pre + s;
      assert t[|t| - |exts[0]|..] == s[|s| - |exts[0]|..];
    } else {
      AnyEndsWithExtends(pre, s, exts[1..]);
    }
  }

  /** One directory as `os.walk` yields it: its path and the file names in it. */
  datatype WalkEntry = WalkEntry(root: string, files: seq<string>)

  /** The picked files of one directory, joined to its path, in listing order. */
  function PickFiles(root: string, files: seq<string>): (paths: seq<string>)
    ensures |paths| <= |files|
  {
    if |files| == 0 then []
    else if HasImageExtension(files[0]) then [Join(root, files[0])] + PickFiles(root, files[1..])
    else PickFiles(root, files[1..])
  }

  /**
   * A path is picked from a directory exactly when it is a file of the
   * listing with a picture extension, joined to the directory: every such
   * file is picked, and nothing else is.
   */
  lemma {:induction false} PickedIffListed(root: string, files: seq<string>, p: string)
    ensures p in PickFiles(root, files) <==>
              exists i :: 0 <= i < |files| && HasImageExtension(files[i]) && p == Join(root, files[i])
  {
    if |files| > 0 {
      var rest := files[1..];
      PickedIffListed(root, rest, p);
      if exists i :: 0 <= i < |files| && HasImageExtension(files[i]) && p == Join(root, files[i]) {
        var i :| 0 <= i < |files| && HasImageExtension(files[i]) && p == Join(root, files[i]);
        if i > 0 {
          assert rest[i - 1] == files[i];
        }
      }
      if p in PickFiles(root, rest) {
        var i :| 0 <= i < |rest| && HasImageExtension(rest[i]) && p == Join(root, rest[i]);
        assert files[i + 1] == rest[i];
      }
    }
  }

  /** Every picked path has a picture extension. */
  lemma {:induction false} PickedArePictures(root: string, files: seq<string>)
    ensures forall i :: 0 <= i < |PickFiles(root, files)| ==> HasImageExtension(PickFiles(root, files)[i])
  {
    if |files| > 0 {
      PickedArePictures(root, files[1..]);
      if HasImageExtension(files[0]) {
        JoinKeepsExtension(root, files[0]);
        var paths := PickFiles(root, files);
        assert forall i :: 1 <= i < |paths| ==> paths[i] == PickFiles(root, files[1..])[i - 1];
      }
    }
  }

  /** A directory contributes nothing exactly when none of its files has a picture extension. */
  lemma {:induction false} PickedNoneIff(root: string, files: seq<string>)
    ensures PickFiles(root, files) == [] <==> forall i :: 0 <= i < |files| ==> !HasImageExtension(files[i])
  {
    if |files| > 0 {
      PickedNoneIff(root, files[1..]);
      assert forall i :: 1 <= i < |files| ==> files[i] == files[1..][i - 1];
    }
  }

  /**
   * Picking is a filter in listing order: a single file contributes its
   * joined path exactly when it has a picture extension, and the picks of
   * two listings one after the other are the picks of each, in that order.
   */
  lemma {:induction false} PickFilesIsFilter(root: string, a: seq<string>, b: seq<string>)
    ensures |a| == 1 ==> PickFiles(root, a) == (if HasImageExtension(a[0]) then [Join(root, a[0])] else [])
    ensures PickFiles(root, a + b) == PickFiles(root, a) + PickFiles(root, b)
  {
    if |a| == 0 {
      assert a + b == b;
    } else {
      assert (a + b)[0] == a[0];
      assert (a + b)[1..] == a[1..] + b;
      PickFilesIsFilter(root, a[1..], b);
      if |a| == 1 {
        assert a[1..] == [];
      }
    }
  }

  /** `image_files`: the picked files of every directory, in walk order. */
  function Discover(walk: seq<WalkEntry>): seq<string> {
    if |walk| == 0 then [] else PickFiles(walk[0].root, walk[0].files) + Discover(walk[1..])
  }

  /**
   * A path is discovered exactly when it is a picture file of some walked
   * directory joined to that directory: discovery misses no picture and
   * invents nothing.
   */
  lemma {:induction false} DiscoveredIffWalked(walk: seq<WalkEntry>, p: string)
    ensures p in Discover(walk) <==>
              exists k, i :: && 0 <= k < |walk| && 0 <= i < |walk[k].files|
                             && HasImageExtension(walk[k].files[i]) && p == Join(walk[k].root, walk[k].files[i])
  {
    if |walk| > 0 {
      var rest := walk[1..];
      DiscoveredIffWalked(rest, p);
      PickedIffListed(walk[0].root, walk[0].files, p);
      if exists k, i :: && 0 <= k < |walk| && 0 <= i < |walk[k].files|
                        && HasImageExtension(walk[k].files[i]) && p == Join(walk[k].root, walk[k].files[i]) {
        var k, i :| && 0 <= k < |walk| && 0 <= i < |walk[k].files|
                    && HasImageExtension(walk[k].files[i]) && p == Join(walk[k].root, walk[k].files[i]);
        if k > 0 {
          assert rest[k - 1] == walk[k];
        }
      }
      if p in Discover(rest) {
        var k, i :| && 0 <= k < |rest| && 0 <= i < |rest[k].files|
                    && HasImageExtension(rest[k].files[i]) && p == Join(rest[k].root, rest[k].files[i]);
        assert walk[k + 1] == rest[k];
      }
    }
  }

  /** Every discovered path has a picture extension. */
  lemma {:induction false} DiscoveredArePictures(walk: seq<WalkEntry>)
    ensures forall i :: 0 <= i < |Discover(walk)| ==> HasImageExtension(Discover(walk)[i])
  {
    if |walk| > 0 {
      DiscoveredArePictures(walk[1..]);
      PickedArePictures(walk[0].root, walk[0].files);
      var first := PickFiles(walk[0].root, walk[0].files);
      var paths := Discover(walk);
      assert forall i :: |first| <= i < |paths| ==> paths[i] == Discover(walk[1..])[i - |first|];
    }
  }

  /** Discovery is empty exactly when no walked file has a picture extension. */
  lemma {:induction false} DiscoveredNoneIff(walk: seq<WalkEntry>)
    ensures Discover(walk) == [] <==>
              forall k, i :: 0 <= k < |walk| && 0 <= i < |walk[k].files| ==> !HasImageExtension(walk[k].files[i])
  {
    if |walk| > 0 {
      DiscoveredNoneIff(walk[1..]);
      PickedNoneIff(walk[0].root, walk[0].files);
      assert forall k :: 1 <= k < |walk| ==> walk[k] == walk[1..][k - 1];
    }
  }

  /** A walk of one directory discovers that directory's picks. */
  lemma DiscoverOfOne(e: WalkEntry)
    ensures Discover([e]) == PickFiles(e.root, e.files)
  {
    assert [e][1..] == [];
    assert PickFiles(e.root, e.files) + [] == PickFiles(e.root, e.files);
  }

  /** Discovery follows the walk: the picks of two walks one after the other are those of each, in order. */
  lemma {:induction false} DiscoverFollowsWalk(w1: seq<WalkEntry>, w2: seq<WalkEntry>)
    ensures Discover(w1 + w2) == Discover(w1) + Discover(w2)
  {
    if |w1| == 0 {
      assert w1 + w2 == w2;
    } else {
      var w := w1 + w2;
      var first := PickFiles(w1[0].root, w1[0].files);
      assert w[0] == w1[0] && w[1..] == w1[1..] + w2;
      DiscoverFollowsWalk(w1[1..], w2);
      assert Discover(w) == first + (Discover(w1[1..]) + Discover(w2));
    }
  }

  // ------------------------------------------------------------ report

  /** One row of the report, with the columns of `predictions.csv`. */
  datatype Row = Row(
    filePath: string,
    predictedClass: string, confidence: real,
    top1Class: string, top1Confidence: real,
    top2Class: string, top2Confidence: real,
    top3Class: string, top3Confidence: real)

  /**
   * The row for one picture: the argmax gives `predicted_class` and
   * `confidence`, the reversed argsort gives the three top columns.
   */
  function PredictRow(path: string, preds: seq<real>, names: Option<seq<string>>, order: seq<nat>): (row: Row)
    requires |preds| >= 3 && IsArgsort(preds, order)
    ensures row.filePath == path
    ensures row.confidence == row.top1Confidence
    ensures row.top1Confidence >= row.top2Confidence >= row.top3Confidence
  {
    var top := TopIndices(order, 3);
    TopIndicesRanked(preds, order, 3);
    ArgMaxAgreesWithTop(preds, top, 3);
    var m := ArgMax(preds);
    Row(path, BatchLabel(names, m), preds[m],
        BatchLabel(names, top[0]), preds[top[0]],
        BatchLabel(names, top[1]), preds[top[1]],
        BatchLabel(names, top[2]), preds[top[2]])
  }

  /**
   * `predicted_class` names the first largest confidence, and `confidence`
   * is that confidence: no output exceeds it.
   */
  lemma PredictRowPredicted(path: string, preds: seq<real>, names: Option<seq<string>>, order: seq<nat>)
    requires |preds| >= 3 && IsArgsort(preds, order)
    ensures var row := PredictRow(path, preds, names, order);
            && (forall i :: 0 <= i < |preds| ==> preds[i] <= row.confidence)
            && (exists i :: 0 <= i < |preds| && preds[i] == row.confidence)
            && row.predictedClass == BatchLabel(names, ArgMax(preds))
  {
    var m := ArgMax(preds);
    assert PredictRow(path, preds, names, order).confidence == preds[m];
  }

  /**
   * The three top columns are the three largest confidences, largest first,
   * each with the label of its own index.
   */
  lemma PredictRowTopColumns(path: string, preds: seq<real>, names: Option<seq<string>>, order: seq<nat>)
    requires |preds| >= 3 && IsArgsort(preds, order)
    ensures var row := PredictRow(path, preds, names, order);
            var top := TopIndices(order, 3);
            && IsTopK(preds, top, 3)
            && row.top1Class == BatchLabel(names, top[0]) && row.top1Confidence == preds[top[0]]
            && row.top2Class == BatchLabel(names, top[1]) && row.top2Confidence == preds[top[1]]
            && row.top3Class == BatchLabel(names, top[2]) && row.top3Confidence == preds[top[2]]
  {
    TopIndicesRanked(preds, order, 3);
  }

  /**
   * With two equal largest confidences, `predicted_class` and `top1_class`
   * may name different classes even under a stable argsort: `np.argmax`
   * takes the first maximum, while reversing the ascending order with
   * `[::-1]` puts the last of the tied maxima first.
   */
  lemma PredictedAndTopMayDiffer()
    ensures var preds: seq<real> := [0.4, 0.4, 0.2];
            var row := PredictRow("a.jpg", preds, None, [2, 0, 1]);
            && row.predictedClass == "0" && row.top1Class == "1"
            && row.confidence == row.top1Confidence
  {
    var preds: seq<real> := [0.4, 0.4, 0.2];
    var order: seq<nat> := [2, 0, 1];
    assert 0 in order && 1 in order && 2 in order;
    assert IsArgsort(preds, order);
    ArgMaxUnique(preds, 0);
    assert TopIndices(order, 3) == [1, 0, 2];
    assert NatToString(0) == "0" && NatToString(1) == "1";
  }

  datatype BatchError =
    | ModelLoadFailed                  // `load_model` raised: the script exits
    | NoImages                         // nothing picked: the script exits
    | UnreadableImage(path: string)    // `load_img` or `predict` raised for this picture
    | NarrowOutput(path: string)       // fewer than three outputs: indexing `top3_*` raises

  /**
   * What the classifier gives for one picked file: `None` when loading or
   * predicting raises, otherwise the confidences. A picture can be reported
   * when its output has at least the three entries the top columns index.
   */
  predicate Reportable(out: Option<seq<real>>) {
    out.Some? && |out.value| >= 3
  }

  /** Every file of the list opens and gives a reportable output. */
  predicate AllReportable(files: seq<string>, classify: string -> Option<seq<real>>) {
    forall i :: 0 <= i < |files| ==> Reportable(classify(files[i]))
  }

  /**
   * The loop over the picked files: one row per file, in order. There is no
   * `try`, so the first picture that cannot be read, or whose output has
   * fewer than three entries, ends the run without a report.
   */
  function PredictAll(files: seq<string>, names: Option<seq<string>>, classify: string -> Option<seq<real>>,
                      argsort: seq<real> -> seq<nat>): (r: Result<seq<Row>, BatchError>)
    requires forall p :: IsArgsort(p, argsort(p))
    ensures r.Ok? <==> AllReportable(files, classify)
    ensures r.Err? ==> && (r.error.UnreadableImage? || r.error.NarrowOutput?)
                       && r.error.path in files && !Reportable(classify(r.error.path))
                       && (r.error.UnreadableImage? <==> classify(r.error.path).None?)
  {
    if |files| == 0 then Ok([])
    else match classify(files[0])
      case None => Err(UnreadableImage(files[0]))
      case Some(preds) =>
        if |preds| < 3 then Err(NarrowOutput(files[0]))
        else
          assert forall i :: 1 <= i < |files| ==> files[i] == files[1..][i - 1];
          assert AllReportable(files, classify) <==> AllReportable(files[1..], classify);
          match PredictAll(files[1..], names, classify, argsort)
            case Err(e) => Err(e)
            case Ok(rows) => Ok([PredictRow(files[0], preds, names, argsort(preds))] + rows)
  }

  /** A finished report has exactly one row per file, in order, each the row of that file's output. */
  lemma PredictAllRows(files: seq<string>, names: Option<seq<string>>,
                       classify: string -> Option<seq<real>>, argsort: seq<real> -> seq<nat>)
    requires forall p :: IsArgsort(p, argsort(p))
    requires PredictAll(files, names, classify, argsort).Ok?
    ensures var rows := PredictAll(files, names, classify, argsort).value;
            && |rows| == |files|
            && forall i :: 0 <= i < |files| ==>
                 && Reportable(classify(files[i]))
                 && rows[i] == PredictRow(files[i], classify(files[i]).value, names, argsort(classify(files[i]).value))
  {
    PredictAllLength(files, names, classify, argsort);
    forall i | 0 <= i < |files|
      ensures Reportable(classify(files[i]))
      ensures PredictAll(files, names, classify, argsort).value[i]
              == PredictRow(files[i], classify(files[i]).value, names, argsort(classify(files[i]).value))
    {
      PredictAllRowAt(files, names, classify, argsort, i);
    }
  }

  lemma {:induction false} PredictAllLength(files: seq<string>, names: Option<seq<string>>,
                                            classify: string -> Option<seq<real>>, argsort: seq<real> -> seq<nat>)
    requires forall p :: IsArgsort(p, argsort(p))
    requires PredictAll(files, names, classify, argsort).Ok?
    ensures |PredictAll(files, names, classify, argsort).value| == |files|
  {
    if |files| > 0 {
      PredictAllLength(files[1..], names, classify, argsort);
    }
  }

  /** The row at position `i` of a finished report is the row of the `i`-th file. */
  lemma {:induction false} PredictAllRowAt(files: seq<string>, names: Option<seq<string>>,
                                           classify: string -> Option<seq<real>>, argsort: seq<real> -> seq<nat>, i: nat)
    requires forall p :: IsArgsort(p, argsort(p))
    requires PredictAll(files, names, classify, argsort).Ok?
    requires i < |files|
    ensures i < |PredictAll(files, names, classify, argsort).value|
    ensures Reportable(classify(files[i]))
    ensures PredictAll(files, names, classify, argsort).value[i]
            == PredictRow(files[i], classify(files[i]).value, names, argsort(classify(files[i]).value))
  {
    if i > 0 {
      PredictAllRowAt(files[1..], names, classify, argsort, i - 1);
      assert files[1..][i - 1] == files[i];
    }
  }

  /** A run that stops does so at the first file that cannot be reported. */
  lemma {:induction false} StopsAtFirstFailure(files: seq<string>, names: Option<seq<string>>,
                                                classify: string -> Option<seq<real>>, argsort: seq<real> -> seq<nat>)
    requires forall p :: IsArgsort(p, argsort(p))
    requires PredictAll(files, names, classify, argsort).Err?
    ensures var path := PredictAll(files, names, classify, argsort).error.path;
            exists i :: && 0 <= i < |files| && files[i] == path
                        && (forall j :: 0 <= j < i ==> Reportable(classify(files[j])))
  {
    if Reportable(classify(files[0])) {
      StopsAtFirstFailure(files[1..], names, classify, argsort);
      var path := PredictAll(files, names, classify, argsort).error.path;
      var i :| && 0 <= i < |files[1..]| && files[1..][i] == path
               && (forall j :: 0 <= j < i ==> Reportable(classify(files[1..][j])));
      assert files[i + 1] == path;
      assert forall j :: 1 <= j < i + 1 ==> files[j] == files[1..][j - 1];
    } else {
      assert files[0] == PredictAll(files, names, classify, argsort).error.path;
    }
  }

  /** A report that lists `files` in order, each row with consistent confidences. */
  predicate ReportOf(files: seq<string>, rows: seq<Row>) {
    && |rows| == |files|
    && forall i :: 0 <= i < |files| ==>
         && rows[i].filePath == files[i]
         && rows[i].confidence == rows[i].top1Confidence
         && rows[i].top1Confidence >= rows[i].top2Confidence >= rows[i].top3Confidence
  }

  /** Every row of a finished report belongs to its file and has consistent confidences. */
  lemma ReportRows(files: seq<string>, names: Option<seq<string>>, classify: string -> Option<seq<real>>,
                   argsort: seq<real> -> seq<nat>)
    requires forall p :: IsArgsort(p, argsort(p))
    requires PredictAll(files, names, classify, argsort).Ok?
    ensures ReportOf(files, PredictAll(files, names, classify, argsort).value)
  {
    PredictAllRows(files, names, classify, argsort);
  }

  /**
   * The whole script: model loading, label loading, discovery, then the
   * rows. No picked file means no report; otherwise the report has exactly
   * one row per picked file, in discovery order, each with confidence equal
   * to its top-1 confidence.
   */
  function RunBatch(modelLoads: bool, labelFile: Option<string>, walk: seq<WalkEntry>,
                    classify: string -> Option<seq<real>>, argsort: seq<real> -> seq<nat>)
    : (r: Result<seq<Row>, BatchError>)
    requires forall p :: IsArgsort(p, argsort(p))
    ensures !modelLoads ==> r == Err(ModelLoadFailed)
    ensures modelLoads && Discover(walk) == [] ==> r == Err(NoImages)
    ensures modelLoads && Discover(walk) != [] ==>
              (r.Ok? <==> AllReportable(Discover(walk), classify))
    ensures r.Ok? ==> && |Discover(walk)| > 0 && ReportOf(Discover(walk), r.value)
                      && forall i :: 0 <= i < |r.value| ==> HasImageExtension(r.value[i].filePath)
  {
    if !modelLoads then Err(ModelLoadFailed)
    else
      var names := LoadLabels(labelFile);
      var files := Discover(walk);
      DiscoveredArePictures(walk);
      if |files| == 0 then Err(NoImages)
      else
        var r := PredictAll(files, names, classify, argsort);
        if r.Ok? then ReportRows(files, names, classify, argsort); r
        else r
  }
}

=== FILE: imaging.dfy ===
/**
 * The image side of the recognition pipeline: PIL colour modes, the
 * normalisation of every mode to RGB, the fixed-size resize and the tensor
 * shape the classifier is checked against.
 */
module Imaging {
  import opened Wrappers

  /** PIL image modes an uploaded picture can arrive in. */
  datatype Mode =
    | Bilevel  // "1"
    | L | P | RGB | RGBA | LA | PA | CMYK | YCbCr | LAB | HSV | I | F | RGBX

  /** Number of channels `img_to_array` produces for an image of mode `m`. */
  function Channels(m: Mode): nat {
    match m
    case Bilevel => 1
    case L => 1
    case P => 1
    case I => 1
    case F => 1
    case LA => 2
    case PA => 2
    case RGB => 3
    case YCbCr => 3
    case LAB => 3
    case HSV => 3
    case RGBA => 4
    case CMYK => 4
    case RGBX => 4
  }

  /** A decoded picture; its pixel values are not part of the model. */
  datatype Image = Image(mode: Mode, width: nat, height: nat)

  /** The classifier's input resolution `(width, height)` as PIL's `resize` takes it. */
  const ImgSize: (nat, nat) := (456, 456)

  /**
   * `process_image_channels`: RGBA, L and every other mode are converted to
   * RGB; an RGB picture is handed back as it is. Conversion keeps the size.
   */
  function ProcessChannels(img: Image): (r: Image)
    ensures r.mode == RGB
    ensures r.width == img.width && r.height == img.height
    ensures img.mode == RGB ==> r == img
  {
    if img.mode == RGBA then img.(mode := RGB)
    else if img.mode == L then img.(mode := RGB)
    else if img.mode == RGB then img
    else img.(mode := RGB)
  }

  /** Normalising twice is the same as normalising once. */
  lemma ProcessChannelsIdempotent(img: Image)
    ensures ProcessChannels(ProcessChannels(img)) == ProcessChannels(img)
  {
  }

  /** `img.resize(size)`: the mode is kept, the size becomes `size`. */
  function Resize(img: Image, size: (nat, nat)): Image {
    img.(width := size.0, height := size.1)
  }

  /** Shape of `np.expand_dims(img_to_array(img) / 255.0, axis=0)`: batch, rows, columns, channels. */
  function TensorShape(img: Image): seq<nat> {
    [1, img.height, img.width, Channels(img.mode)]
  }

  /** The shape the recognition step insists on: `(1, img_size[0], img_size[1], 3)`. */
  function ExpectedShape(): seq<nat> {
    [1, ImgSize.0, ImgSize.1, 3]
  }

  datatype ShapeMismatch = ShapeMismatch(actual: seq<nat>, expected: seq<nat>)

  /**
   * Resizes the processed picture to the classifier's resolution and checks
   * the tensor shape before anything is handed to the classifier.
   */
  function ModelInput(img: Image): (r: Result<Image, ShapeMismatch>)
    ensures r.Ok? <==> Channels(img.mode) == 3
    ensures r.Ok? ==> r.value.mode == img.mode && TensorShape(r.value) == ExpectedShape()
    ensures r.Err? ==> r.error.expected == ExpectedShape() && r.error.actual != ExpectedShape()
                       && r.error.actual == [1, 456, 456, Channels(img.mode)]
  {
    var resized := Resize(img, ImgSize);
    var shape := TensorShape(resized);
    if shape != ExpectedShape() then Err(ShapeMismatch(shape, ExpectedShape()))
    else Ok(resized)
  }

  /** Every picture that went through `ProcessChannels` passes the shape check. */
  lemma ProcessedPassesShapeCheck(img: Image)
    ensures ModelInput(ProcessChannels(img)).Ok?
  {
  }

  /** A grayscale picture that skipped normalisation is refused with shape `(1, 456, 456, 1)`. */
  lemma GrayscaleRefused(w: nat, h: nat)
    ensures ModelInput(Image(L, w, h)) == Err(ShapeMismatch([1, 456, 456, 1], [1, 456, 456, 3]))
  {
  }
}

=== FILE: progress.dfy ===
/**
 * The desktop app's progress: the unlocked-animal set and the user
 * statistics, held in memory and mirrored to two JSON files
 * (`unlocked_animals.json`, `user_stats.json`) whenever a save is called.
 */
module Progress {

  /** The user statistics record; `last_played` is left out of the model. */
  datatype Stats = Stats(totalRecognitions: int, correctGuesses: int, animalsUnlocked: int)

  /** The record the app starts from when no statistics file can be read. */
  const ZeroStats := Stats(0, 0, 0)

  /** What a JSON file on disk holds: nothing, something unreadable, or a value. */
  datatype StoredFile<T> = Missing | Corrupt | Stored(content: T)

  /**
   * The two files. The unlocked set is written as a JSON list and read back
   * through `set(...)`, so its element order never matters and the file is
   * modelled by the set it denotes.
   */
  datatype Disk = Disk(unlockedFile: StoredFile<set<string>>, statsFile: StoredFile<Stats>)

  /** In-memory progress together with what was last written to disk. */
  datatype Store = Store(unlocked: set<string>, stats: Stats, disk: Disk)

  /** `load_unlocked_animals`: a missing or unreadable file gives the empty set. */
  function LoadUnlocked(f: StoredFile<set<string>>): (r: set<string>)
    ensures f.Stored? ==> r == f.content
    ensures !f.Stored? ==> r == {}
  {
    match f
    case Stored(s) => s
    case _ => {}
  }

  /** `load_user_stats`: a missing or unreadable file leaves the zero record in place. */
  function LoadStats(f: StoredFile<Stats>): (r: Stats)
    ensures f.Stored? ==> r == f.content
    ensures !f.Stored? ==> r == ZeroStats
  {
    match f
    case Stored(st) => st
    case _ => ZeroStats
  }

  /** The state the app starts in, read from the two files. */
  function Startup(disk: Disk): (r: Store)
    ensures r.disk == disk
    ensures r.unlocked == LoadUnlocked(disk.unlockedFile)
    ensures r.stats == LoadStats(disk.statsFile)
  {
    Store(LoadUnlocked(disk.unlockedFile), LoadStats(disk.statsFile), disk)
  }

  /** `save_unlocked_animals`: writes the in-memory set; memory is untouched. */
  function SaveUnlocked(st: Store): (r: Store)
    ensures r.unlocked == st.unlocked && r.stats == st.stats
    ensures r.disk.statsFile == st.disk.statsFile
    ensures LoadUnlocked(r.disk.unlockedFile) == st.unlocked
  {
    st.(disk := st.disk.(unlockedFile := Stored(st.unlocked)))
  }

  /**
   * `save_user_stats`: first brings `animals_unlocked` in line with the
   * size of the unlocked set, then writes the record. The unlocked set and
   * its file are untouched, as are the two counters.
   */
  function SaveStats(st: Store): (r: Store)
    ensures r.unlocked == st.unlocked
    ensures r.disk.unlockedFile == st.disk.unlockedFile
    ensures r.stats.totalRecognitions == st.stats.totalRecognitions
    ensures r.stats.correctGuesses == st.stats.correctGuesses
    ensures r.stats.animalsUnlocked == |st.unlocked|
    ensures LoadStats(r.disk.statsFile) == r.stats
  {
    var stats := st.stats.(animalsUnlocked := |st.unlocked|);
    st.(stats := stats, disk := st.disk.(statsFile := Stored(stats)))
  }

  /** Saving both files and restarting the app gives back the same progress. */
  lemma SavedProgressSurvivesRestart(st: Store)
    ensures var saved := SaveStats(SaveUnlocked(st));
            Startup(saved.disk) == saved
  {
  }

  /** Saving statistics twice in a row writes the same thing as saving once. */
  lemma SaveStatsIdempotent(st: Store)
    ensures SaveStats(SaveStats(st)) == SaveStats(st)
  {
  }
}

=== FILE: quiz.dfy ===
/**
 * The quiz mode of the desktop app: picking the animals of a round, building
 * the four answer options of a question, and scoring an answer. Every use of
 * `random` is a parameter: the positions `random.sample` picks, the indices
 * `random.choice` draws one after another, and the order `random.shuffle`
 * produces.
 */
module Quiz {
  import opened Wrappers
  import opened Ranking
  import opened Progress
  import Text

  /** The round in progress: `game_animals`, `current_animal_index`, `score`, `correct_answer` and the buttons shown. */
  datatype Game = Game(animals: seq<string>, index: nat, score: nat, answer: Option<string>, options: seq<string>)

  datatype QuizError =
    | NotEnoughAnimals(wanted: nat)  // `start_game` refuses the round
    | NotEnoughOptions               // the option builder gives up
    | OutOfDraws                     // the draws ran out before four options were found

  /** What `random.sample(range(size), n)` promises: `n` distinct positions below `size`. */
  predicate IsSample(sample: seq<nat>, n: nat, size: nat) {
    && |sample| == n
    && (forall i :: 0 <= i < |sample| ==> sample[i] < size)
    && (forall i, j :: 0 <= i < j < |sample| ==> sample[i] != sample[j])
  }

  predicate Distinct(s: seq<string>) {
    forall i, j :: 0 <= i < j < |s| ==> s[i] != s[j]
  }

  /**
   * `start_game(n)`: refused when there are fewer than `n` labels; otherwise
   * the round is the labels at the sampled positions, starting at the first
   * question with score 0.
   */
  function StartGame(names: seq<string>, n: nat, sample: seq<nat>): (r: Result<Game, QuizError>)
    requires |names| >= n ==> IsSample(sample, n, |names|)
    ensures r.Err? <==> |names| < n
    ensures r.Err? ==> r.error == NotEnoughAnimals(n)
    ensures r.Ok? ==> && |r.value.animals| == n
                      && (forall i :: 0 <= i < n ==> r.value.animals[i] == names[sample[i]])
                      && r.value.index == 0 && r.value.score == 0 && r.value.answer.None?
  {
    if |names| < n then Err(NotEnoughAnimals(n))
    else Ok(Game(seq(n, i requires 0 <= i < n => names[sample[i]]), 0, 0, None, []))
  }

  /** With a label list free of repeats, a round never asks about the same animal twice. */
  lemma StartGameDistinct(names: seq<string>, n: nat, sample: seq<nat>)
    requires |names| >= n && IsSample(sample, n, |names|)
    requires Distinct(names)
    ensures StartGame(names, n, sample).Ok?
    ensures Distinct(StartGame(names, n, sample).value.animals)
    ensures forall a :: a in StartGame(names, n, sample).value.animals ==> a in names
  {
  }

  // ------------------------------------------------------------ options

  /** The labels other than `current`: the only possible wrong answers. */
  function Alternatives(names: seq<string>, current: string): set<string> {
    set j | 0 <= j < |names| && names[j] != current :: names[j]
  }

  predicate ValidDraws(draws: seq<nat>, size: nat) {
    forall i :: 0 <= i < |draws| ==> draws[i] < size
  }

  /** The options collected so far: the answer first, then distinct wrong answers. */
  predicate Partial(names: seq<string>, current: string, options: seq<string>) {
    && 1 <= |options| <= 4
    && options[0] == current
    && Distinct(options)
    && (forall i :: 1 <= i < |options| ==> options[i] in Alternatives(names, current))
  }

  /**
   * The body of the `while len(options) < 4` loop: each draw is kept when it
   * is neither the answer nor already an option.
   */
  function Collect(names: seq<string>, current: string, options: seq<string>, draws: seq<nat>)
    : (r: Result<seq<string>, QuizError>)
    requires ValidDraws(draws, |names|)
    requires Partial(names, current, options)
    ensures r.Ok? ==> |r.value| == 4 && Partial(names, current, r.value)
    ensures r.Ok? ==> options <= r.value
    ensures r.Err? ==> r.error == OutOfDraws
    decreases |draws|
  {
    if |options| == 4 then Ok(options)
    else if |draws| == 0 then Err(OutOfDraws)
    else
      var wrong := names[draws[0]];
      if wrong != current && wrong !in options then
        Collect(names, current, options + [wrong], draws[1..])
      else
        Collect(names, current, options, draws[1..])
  }

  /**
   * The option builder as written: it gives up only when there are fewer
   * than four labels, even if fewer than three of them differ from the
   * answer.
   */
  function GenerateOptionsAsWritten(names: seq<string>, current: string, draws: seq<nat>)
    : (r: Result<seq<string>, QuizError>)
    requires ValidDraws(draws, |names|)
    ensures |names| < 4 <==> r == Err(NotEnoughOptions)
    ensures r.Ok? ==> |r.value| == 4 && Partial(names, current, r.value)
  {
    if |names| < 4 then Err(NotEnoughOptions)
    else Collect(names, current, [current], draws)
  }

  /**
   * The option builder with the guard the loop needs: it gives up when
   * fewer than three labels differ from the answer.
   */
  function GenerateOptions(names: seq<string>, current: string, draws: seq<nat>)
    : (r: Result<seq<string>, QuizError>)
    requires ValidDraws(draws, |names|)
    ensures |Alternatives(names, current)| < 3 <==> r == Err(NotEnoughOptions)
    ensures r.Ok? ==> && |r.value| == 4 && r.value[0] == current && Distinct(r.value)
                      && (forall i :: 1 <= i < 4 ==> r.value[i] in names && r.value[i] != current)
  {
    if |Alternatives(names, current)| < 3 then Err(NotEnoughOptions)
    else Collect(names, current, [current], draws)
  }

  /** Four collected options hold three distinct wrong answers, so there must be three to find. */
  lemma CompletionNeedsThreeAlternatives(names: seq<string>, current: string, options: seq<string>)
    requires |options| == 4 && Partial(names, current, options)
    ensures |Alternatives(names, current)| >= 3
  {
    var three := {options[1], options[2], options[3]};
    assert |three| == 3;
    SubsetSize(three, Alternatives(names, current));
  }

  lemma {:induction false} SubsetSize<T>(a: set<T>, b: set<T>)
    requires a <= b
    ensures |a| <= |b|
    decreases |a|
  {
    if a != {} {
      var x :| x in a;
      SubsetSize(a - {x}, b - {x});
    }
  }

  /**
   * As written, a label list of four or more entries with fewer than three
   * labels other than the answer passes the guard, yet no sequence of draws
   * ever completes the options.
   */
  lemma AsWrittenStalls(names: seq<string>, current: string, draws: seq<nat>)
    requires ValidDraws(draws, |names|)
    requires |names| >= 4 && |Alternatives(names, current)| < 3
    ensures GenerateOptionsAsWritten(names, current, draws) == Err(OutOfDraws)
  {
    var r := Collect(names, current, [current], draws);
    if r.Ok? {
      CompletionNeedsThreeAlternatives(names, current, r.value);
    }
  }

  /** A class file with two names and three blank lines reads as five labels, three of them empty. */
  lemma BlankLinesFile()
    ensures Text.ParseLabels("cat\ndog\n\n\n\n") == ["cat", "dog", "", "", ""]
  {
    var names := ["cat", "dog", "", "", ""];
    assert Text.RenderLines(names[4..]) == "\n";
    assert Text.RenderLines(names[3..]) == "\n\n";
    assert Text.RenderLines(names[2..]) == "\n\n\n";
    assert Text.RenderLines(names[1..]) == "dog\n\n\n\n";
    assert Text.RenderLines(names) == "cat\ndog\n\n\n\n";
    assert forall i :: 0 <= i < 5 ==> Text.Stripped(names[i]) && Text.NoLineBreak(names[i]);
    Text.LabelFileRoundTrip(names);
  }

  /**
   * A class file with blank lines reaches the stall: the labels `cat`, `dog`
   * and three empty ones are enough for a round of five, and a question
   * about `cat` has only two other labels to offer, so the loop never ends.
   */
  lemma AsWrittenNeverFinishes(draws: seq<nat>)
    requires ValidDraws(draws, 5)
    ensures var names := ["cat", "dog", "", "", ""];
            && StartGame(names, 5, [0, 1, 2, 3, 4]).Ok?
            && StartGame(names, 5, [0, 1, 2, 3, 4]).value.animals[0] == "cat"
            && GenerateOptionsAsWritten(names, "cat", draws) == Err(OutOfDraws)
  {
    var names := ["cat", "dog", "", "", ""];
    assert IsSample([0, 1, 2, 3, 4], 5, 5);
    assert Alternatives(names, "cat") == {"dog", ""} by {
      assert names[1] == "dog" && names[2] == "";
    }
    assert |{"dog", ""}| == 2;
    AsWrittenStalls(names, "cat", draws);
  }

  /** Whenever the corrected guard lets the loop start, three draws are enough to finish it. */
  lemma GenerateOptionsCanFinish(names: seq<string>, current: string)
    requires |Alternatives(names, current)| >= 3
    ensures exists draws :: ValidDraws(draws, |names|) && GenerateOptions(names, current, draws).Ok?
  {
    var alts := Alternatives(names, current);
    var a :| a in alts;
    assert |alts - {a}| == |alts| - 1;
    var b :| b in alts - {a};
    assert |alts - {a} - {b}| == |alts| - 2;
    var c :| c in alts - {a} - {b};
    var i :| 0 <= i < |names| && names[i] != current && names[i] == a;
    var j :| 0 <= j < |names| && names[j] != current && names[j] == b;
    var k :| 0 <= k < |names| && names[k] != current && names[k] == c;
    var draws := [i, j, k];
    assert ValidDraws(draws, |names|);
    assert draws[1..] == [j, k] && [j, k][1..] == [k] && [k][1..] == [];
    assert [current] + [a] == [current, a] && [current, a] + [b] == [current, a, b];
    assert [current, a, b] + [c] == [current, a, b, c];
    calc {
      Collect(names, current, [current], draws);
      Collect(names, current, [current, a], [j, k]);
      Collect(names, current, [current, a, b], [k]);
      Collect(names, current, [current, a, b, c], []);
      Ok([current, a, b, c]);
    }
  }

  /**
   * The corrected builder can finish for some draws exactly when it does
   * not give up at once: it has no way of looping for ever.
   */
  lemma GenerateOptionsFinishesIff(names: seq<string>, current: string)
    ensures (exists draws :: ValidDraws(draws, |names|) && GenerateOptions(names, current, draws).Ok?)
            <==> |Alternatives(names, current)| >= 3
  {
    if |Alternatives(names, current)| >= 3 {
      GenerateOptionsCanFinish(names, current);
    }
  }

  lemma {:induction false} LabelSetSize(names: seq<string>)
    ensures |set j | 0 <= j < |names| :: names[j]| <= |names|
  {
    if |names| > 0 {
      var init := names[..|names| - 1];
      LabelSetSize(init);
      var a := set j | 0 <= j < |init| :: init[j];
      assert (set j | 0 <= j < |names| :: names[j]) == a + {names[|names| - 1]} by {
        forall x | x in a
          ensures x in set j | 0 <= j < |names| :: names[j]
        {
          var j :| 0 <= j < |init| && init[j] == x;
          assert names[j] == x;
        }
      }
    }
  }

  /**
   * The corrected guard only differs where the original one is wrong: when
   * the original finishes, the corrected one gives the same options, and
   * for an answer taken from the label list both agree whenever three
   * wrong answers exist.
   */
  lemma CorrectionAgreesOnSoundInputs(names: seq<string>, current: string, draws: seq<nat>)
    requires ValidDraws(draws, |names|)
    ensures GenerateOptionsAsWritten(names, current, draws).Ok? ==>
              GenerateOptions(names, current, draws) == GenerateOptionsAsWritten(names, current, draws)
    ensures current in names && |Alternatives(names, current)| >= 3 ==>
              GenerateOptions(names, current, draws) == GenerateOptionsAsWritten(names, current, draws)
  {
    var r := GenerateOptionsAsWritten(names, current, draws);
    if r.Ok? {
      CompletionNeedsThreeAlternatives(names, current, r.value);
    }
    var alts := Alternatives(names, current);
    if current in names && |alts| >= 3 {
      var all := set j | 0 <= j < |names| :: names[j];
      assert current in all;
      assert alts + {current} <= all;
      assert |alts + {current}| == |alts| + 1;
      SubsetSize(alts + {current}, all);
      LabelSetSize(names);
    }
  }

  /**
   * For an answer taken from the label list, the corrected builder differs
   * from the code only where the code keeps drawing for ever: the code has
   * passed its guard, fewer than three other labels exist, and no draws
   * finish its loop.
   */
  lemma CorrectionDiffersOnlyWhereCodeLoops(names: seq<string>, current: string, draws: seq<nat>)
    requires ValidDraws(draws, |names|)
    requires current in names
    ensures GenerateOptions(names, current, draws) != GenerateOptionsAsWritten(names, current, draws) ==>
              && |names| >= 4 && |Alternatives(names, current)| < 3
              && GenerateOptionsAsWritten(names, current, draws) == Err(OutOfDraws)
              && GenerateOptions(names, current, draws) == Err(NotEnoughOptions)
  {
    var alts := Alternatives(names, current);
    CorrectionAgreesOnSoundInputs(names, current, draws);
    if |alts| < 3 && |names| >= 4 {
      AsWrittenStalls(names, current, draws);
    }
  }

  /** `random.shuffle(options)` with the resulting order given as a permutation. */
  function Shuffle(options: seq<string>, perm: seq<nat>): (r: seq<string>)
    requires IsPermutation(perm, |options|)
    ensures |r| == |options|
    ensures forall x :: x in r <==> x in options
    ensures Distinct(options) ==> Distinct(r)
  {
    var r := seq(|options|, i requires 0 <= i < |options| => options[perm[i]]);
    assert forall x :: x in options ==> x in r by {
      forall x | x in options
        ensures x in r
      {
        var k :| 0 <= k < |options| && options[k] == x;
        assert k in perm;
        var i :| 0 <= i < |perm| && perm[i] == k;
        assert r[i] == x;
      }
    }
    r
  }

  /**
   * `show_game_question` without the display: the options for the current
   * animal are built and shuffled, and the answer is recorded. When the
   * builder gives up, the round stays as it was.
   */
  function ShowQuestion(g: Game, names: seq<string>, draws: seq<nat>, perm: seq<nat>)
    : (r: Result<Game, QuizError>)
    requires g.index < |g.animals|
    requires ValidDraws(draws, |names|)
    requires IsPermutation(perm, 4)
    ensures r.Ok? ==> && r.value.answer == Some(g.animals[g.index])
                      && |r.value.options| == 4 && Distinct(r.value.options)
                      && g.animals[g.index] in r.value.options
                      && (forall o :: o in r.value.options && o != g.animals[g.index] ==> o in names)
                      && r.value.animals == g.animals && r.value.index == g.index
                      && r.value.score == g.score
    ensures r == Err(NotEnoughOptions) <==> |Alternatives(names, g.animals[g.index])| < 3
  {
    var current := g.animals[g.index];
    match GenerateOptions(names, current, draws)
    case Err(e) => Err(e)
    case Ok(options) =>
      var shuffled := Shuffle(options, perm);
      assert current in options by { assert options[0] == current; }
      Ok(g.(answer := Some(current), options := shuffled))
  }

  // ------------------------------------------------------------ answers

  datatype AnswerStep = AnswerStep(store: Store, game: Game, finished: bool)

  /** The round's bookkeeping: no more points than questions answered, no more answered than asked. */
  predicate Playing(g: Game) {
    g.score <= g.index < |g.animals|
  }

  /**
   * `check_answer`: a correct answer scores a point, counts a correct guess,
   * unlocks the animal and saves both files; a wrong one changes none of
   * these. Either way the round moves to the next question, and it ends when
   * no question is left.
   */
  function CheckAnswer(st: Store, g: Game, selected: string): (r: AnswerStep)
    ensures r.game.index == g.index + 1
    ensures r.game.animals == g.animals
    ensures r.finished <==> r.game.index >= |g.animals|
    ensures g.answer == Some(selected) ==>
              && r.game.score == g.score + 1
              && r.store.stats.correctGuesses == st.stats.correctGuesses + 1
              && r.store.unlocked == st.unlocked + {selected}
              && LoadUnlocked(r.store.disk.unlockedFile) == r.store.unlocked
              && LoadStats(r.store.disk.statsFile) == r.store.stats
              && r.store.stats.animalsUnlocked == |r.store.unlocked|
    ensures g.answer != Some(selected) ==> r.game.score == g.score && r.store == st
    ensures r.store.stats.totalRecognitions == st.stats.totalRecognitions
    ensures st.unlocked <= r.store.unlocked
  {
    var correct := g.answer == Some(selected);
    var st' :=
      if correct then
        var stats := st.stats.(correctGuesses := st.stats.correctGuesses + 1);
        SaveStats(SaveUnlocked(st.(unlocked := st.unlocked + {selected}, stats := stats)))
      else st;
    var score := if correct then g.score + 1 else g.score;
    var index := g.index + 1;
    AnswerStep(st', g.(score := score, index := index), index >= |g.animals|)
  }

  /**
   * Answering a question of a round in progress keeps the bookkeeping: the
   * round either goes on with a valid next question or ends exactly at its
   * last question, with no more points than questions.
   */
  lemma AnswerKeepsRound(st: Store, g: Game, selected: string)
    requires Playing(g)
    ensures var r := CheckAnswer(st, g, selected);
            && (r.finished <==> r.game.index == |g.animals|)
            && (!r.finished ==> Playing(r.game))
            && r.game.score <= r.game.index <= |r.game.animals|
  {
  }

  /** A fresh round of at least one question is in progress. */
  lemma StartedRoundIsPlaying(names: seq<string>, n: nat, sample: seq<nat>)
    requires |names| >= n > 0 && IsSample(sample, n, |names|)
    ensures Playing(StartGame(names, n, sample).value)
  {
  }
}

=== FILE: ranking.dfy ===
/**
 * Ranking a classifier's confidence vector: `np.argsort(p)[::-1][:3]` for the
 * top three, `np.argmax(p)` for the single winner, and the index-to-label
 * lookup that falls back to the printed index.
 */
module Ranking {
  import opened Text

  function Min(a: nat, b: nat): nat {
    if a <= b then a else b
  }

  /** `a` lists every index below `n` exactly once. */
  predicate IsPermutation(a: seq<nat>, n: nat) {
    && |a| == n
    && (forall i :: 0 <= i < |a| ==> a[i] < n)
    && (forall i, j :: 0 <= i < j < |a| ==> a[i] != a[j])
    && (forall x :: 0 <= x < n ==> x in a)
  }

  /**
   * What `np.argsort(p)` promises: the indices of `p` in an order of
   * non-decreasing confidence. The sort is not stable, so the order among
   * equal confidences is left open: every such order qualifies.
   */
  predicate IsArgsort(p: seq<real>, a: seq<nat>) {
    && IsPermutation(a, |p|)
    && (forall i, j :: 0 <= i < j < |a| ==> p[a[i]] <= p[a[j]])
  }

  /**
   * One way to compute an argsort (insertion of each index after the ones
   * with equal or smaller confidence); it shows that the contract above can
   * be met for every confidence vector.
   */
  method Argsort(p: seq<real>) returns (a: seq<nat>)
    ensures IsArgsort(p, a)
  {
    a := [];
    var n := 0;
    while n < |p|
      invariant 0 <= n <= |p|
      invariant IsPermutation(a, n)
      invariant forall i, j :: 0 <= i < j < |a| ==> p[a[i]] <= p[a[j]]
    {
      var j := 0;
      while j < |a| && p[a[j]] <= p[n]
        invariant 0 <= j <= |a|
        invariant forall m :: 0 <= m < j ==> p[a[m]] <= p[n]
      {
        j := j + 1;
      }
      assert forall m :: j <= m < |a| ==> p[n] < p[a[m]] by {
        if j < |a| {
          assert forall m :: j <= m < |a| ==> p[a[j]] <= p[a[m]];
        }
      }
      InsertKeepsPermutation(a, n, j);
      InsertKeepsOrder(p, a, n, j);
      a := a[..j] + [n] + a[j..];
      n := n + 1;
    }
  }

  /** Inserting the next index anywhere into a permutation of the smaller ones gives a permutation. */
  lemma InsertKeepsPermutation(a: seq<nat>, n: nat, j: nat)
    requires IsPermutation(a, n) && j <= |a|
    ensures IsPermutation(a[..j] + [n] + a[j..], n + 1)
  {
    var b := a[..j] + [n] + a[j..];
    assert forall k :: 0 <= k < j ==> b[k] == a[k];
    assert forall k :: j < k < |b| ==> b[k] == a[k - 1];
    forall x | 0 <= x < n + 1
      ensures x in b
    {
      if x == n {
        assert b[j] == n;
      } else {
        assert x in a;
        var i :| 0 <= i < |a| && a[i] == x;
        if i < j {
          assert b[i] == x;
        } else {
          assert b[i + 1] == x;
        }
      }
    }
  }

  /** Inserting `n` between the entries no larger and the entries larger keeps the order. */
  lemma InsertKeepsOrder(p: seq<real>, a: seq<nat>, n: nat, j: nat)
    requires n < |p| && j <= |a|
    requires forall i :: 0 <= i < |a| ==> a[i] < |p|
    requires forall i, k :: 0 <= i < k < |a| ==> p[a[i]] <= p[a[k]]
    requires forall m :: 0 <= m < j ==> p[a[m]] <= p[n]
    requires forall m :: j <= m < |a| ==> p[n] < p[a[m]]
    ensures var b := a[..j] + [n] + a[j..];
            forall i, k :: 0 <= i < k < |b| ==> p[b[i]] <= p[b[k]]
  {
    var b := a[..j] + [n] + a[j..];
    assert forall k :: 0 <= k < j ==> b[k] == a[k];
    assert b[j] == n;
    assert forall k :: j < k < |b| ==> b[k] == a[k - 1];
  }

  /** `argsort(p)[::-1][:k]`: the last `k` entries of the argsort, last first. */
  function TopIndices(a: seq<nat>, k: nat): (r: seq<nat>)
    ensures |r| == Min(k, |a|)
    ensures forall i :: 0 <= i < |r| ==> r[i] in a
  {
    seq(Min(k, |a|), i requires 0 <= i < Min(k, |a|) => a[|a| - 1 - i])
  }

  /**
   * `r` is a top-`k` ranking of `p`: `min(k, |p|)` distinct indices of `p`,
   * confidences non-increasing along `r`, and no index left out has a higher
   * confidence than any index kept.
   */
  predicate IsTopK(p: seq<real>, r: seq<nat>, k: nat) {
    && |r| == Min(k, |p|)
    && (forall i :: 0 <= i < |r| ==> r[i] < |p|)
    && (forall i, j :: 0 <= i < j < |r| ==> r[i] != r[j])
    && (forall i, j :: 0 <= i < j < |r| ==> p[r[i]] >= p[r[j]])
    && (forall x, i :: 0 <= x < |p| && x !in r && 0 <= i < |r| ==> p[x] <= p[r[i]])
  }

  /** Reversing an argsort and keeping `k` entries yields a top-`k` ranking. */
  lemma TopIndicesRanked(p: seq<real>, a: seq<nat>, k: nat)
    requires IsArgsort(p, a)
    ensures IsTopK(p, TopIndices(a, k), k)
  {
    var r := TopIndices(a, k);
    forall t | |a| - |r| <= t < |a|
      ensures a[t] in r
    {
      assert r[|a| - 1 - t] == a[t];
    }
    forall x, i | 0 <= x < |p| && x !in r && 0 <= i < |r|
      ensures p[x] <= p[r[i]]
    {
      assert x in a;
      var j :| 0 <= j < |a| && a[j] == x;
      assert j < |a| - 1 - i;
    }
  }

  /** The first entry of a non-empty top-`k` ranking has the largest confidence. */
  lemma TopFirstIsMaximal(p: seq<real>, r: seq<nat>, k: nat)
    requires IsTopK(p, r, k) && k > 0 && |p| > 0
    ensures forall x :: 0 <= x < |p| ==> p[x] <= p[r[0]]
  {
    forall x | 0 <= x < |p|
      ensures p[x] <= p[r[0]]
    {
      if x in r {
        var i :| 0 <= i < |r| && r[i] == x;
        if i > 0 {
          assert p[r[0]] >= p[r[i]];
        }
      }
    }
  }

  /**
   * `np.argmax(p)`: the first index holding the largest confidence.
   */
  function ArgMax(p: seq<real>): (m: nat)
    requires |p| > 0
    ensures m < |p|
    ensures forall i :: 0 <= i < |p| ==> p[i] <= p[m]
    ensures forall i :: 0 <= i < m ==> p[i] < p[m]
  {
    if |p| == 1 then 0
    else
      var m := ArgMax(p[..|p| - 1]);
      assert forall i :: 0 <= i < |p| - 1 ==> p[..|p| - 1][i] == p[i];
      if p[|p| - 1] > p[m] then |p| - 1 else m
  }

  /** The two properties of `ArgMax` pin the index down: there is only one such index. */
  lemma ArgMaxUnique(p: seq<real>, m: nat)
    requires m < |p|
    requires forall i :: 0 <= i < |p| ==> p[i] <= p[m]
    requires forall i :: 0 <= i < m ==> p[i] < p[m]
    ensures m == ArgMax(p)
  {
  }

  /**
   * The argmax and the first entry of any top ranking carry the same
   * confidence, and they are the same index when the maximum is unique.
   */
  lemma ArgMaxAgreesWithTop(p: seq<real>, r: seq<nat>, k: nat)
    requires IsTopK(p, r, k) && k > 0 && |p| > 0
    ensures p[ArgMax(p)] == p[r[0]]
    ensures (forall x :: 0 <= x < |p| && x != ArgMax(p) ==> p[x] < p[ArgMax(p)]) ==> r[0] == ArgMax(p)
  {
    TopFirstIsMaximal(p, r, k);
  }

  /**
   * The display name for classifier output `idx`: the label at that position
   * when the label list reaches it, otherwise the index printed in decimal.
   */
  function LabelFor(names: seq<string>, idx: nat): (l: string)
    ensures idx < |names| ==> l == names[idx]
    ensures idx >= |names| ==> (forall i :: 0 <= i < |l| ==> IsDigit(l[i])) && DecimalValue(l) == idx
  {
    if idx < |names| then names[idx]
    else
      DecimalRoundTrip(idx);
      NatToString(idx)
  }
}

=== FILE: recognition.dfy ===
/**
 * The recognition screen of the desktop app as a sequence of state steps:
 * loading the model, uploading a picture, starting a recognition (counter
 * and trigger), and the recognition itself (lazy reload, shape check,
 * top-3 ranking, unlocking the winning animal). The classifier and the
 * argsort are parameters; the background thread is replaced by running the
 * recognition as the next step.
 */
module Recognition {
  import opened Wrappers
  import opened Ranking
  import opened Imaging
  import opened Progress
  import Text

  /** `self.model is not None` and `self.model_loaded`. */
  datatype ModelStatus = ModelStatus(present: bool, loaded: bool)

  predicate Usable(m: ModelStatus) {
    m.present && m.loaded
  }

  /**
   * How one call of `load_model` ends: the network is deserialised and
   * compiled; deserialisation raises (nothing is assigned); or compilation
   * raises after the network was assigned to `self.model`.
   */
  datatype LoadAttempt = LoadSucceeded | DeserializeFailed | CompileFailed

  /** `load_model`: only full success sets the loaded flag. */
  function LoadModel(m: ModelStatus, attempt: LoadAttempt): (r: ModelStatus)
    ensures !m.loaded ==> (Usable(r) <==> attempt == LoadSucceeded)
    ensures attempt == DeserializeFailed ==> r == m
    ensures attempt == CompileFailed ==> r.present && r.loaded == m.loaded
    ensures m.present ==> r.present
  {
    match attempt
    case LoadSucceeded => ModelStatus(true, true)
    case DeserializeFailed => m
    case CompileFailed => m.(present := true)
  }

  /** The app's state as far as recognition and progress are concerned. */
  datatype App = App(
    classNames: seq<string>,
    store: Store,
    model: ModelStatus,
    currentPath: Option<string>,
    processed: Option<Image>,
    recognizeEnabled: bool)

  /** What stays true of every reachable app state. */
  predicate Valid(app: App) {
    && (app.model.loaded ==> app.model.present)
    && (app.processed.Some? ==> app.processed.value.mode == RGB)
  }

  /**
   * `__init__`: statistics and the unlocked set are read from disk, the
   * model is loaded once, the label list is read from the class file (it
   * stays empty when the file is missing), and no picture is selected yet.
   */
  function Init(classFile: Option<string>, disk: Disk, attempt: LoadAttempt): (app: App)
    ensures Valid(app)
    ensures app.store == Startup(disk)
    ensures Usable(app.model) <==> attempt == LoadSucceeded
    ensures classFile.None? ==> app.classNames == []
    ensures classFile.Some? ==> app.classNames == Text.ParseLabels(classFile.value)
    ensures classFile.Some? ==> forall i :: 0 <= i < |app.classNames| ==> Text.Stripped(app.classNames[i])
    ensures app.currentPath.None? && app.processed.None? && !app.recognizeEnabled
  {
    var names := if classFile.Some? then Text.ParseLabels(classFile.value) else [];
    App(names, Startup(disk), LoadModel(ModelStatus(false, false), attempt), None, None, false)
  }

  /**
   * `upload_image`: a cancelled dialog (empty path) changes nothing; a
   * picture that fails to open clears the selection and disables the
   * trigger; otherwise the picture is normalised to RGB and the trigger is
   * enabled.
   */
  function UploadImage(app: App, path: string, decoded: Option<Image>): (r: App)
    ensures path == "" ==> r == app
    ensures path != "" && decoded.None? ==> r.currentPath.None? && r.processed.None? && !r.recognizeEnabled
    ensures path != "" && decoded.Some? ==>
              r.currentPath == Some(path) && r.processed == Some(ProcessChannels(decoded.value)) && r.recognizeEnabled
    ensures r.store == app.store && r.model == app.model && r.classNames == app.classNames
    ensures Valid(app) ==> Valid(r)
  {
    if path == "" then app
    else match decoded
      case None => app.(currentPath := None, processed := None, recognizeEnabled := false)
      case Some(img) => app.(currentPath := Some(path), processed := Some(ProcessChannels(img)), recognizeEnabled := true)
  }

  predicate HasPicture(app: App) {
    app.currentPath.Some? && app.currentPath.value != "" && app.processed.Some?
  }

  /**
   * `start_recognition` up to the hand-off to the worker: without a picture
   * nothing happens; otherwise the trigger is disabled and
   * `total_recognitions` goes up by one and is saved.
   */
  function StartRecognition(app: App): (r: (App, bool))
    ensures r.1 <==> HasPicture(app)
    ensures !r.1 ==> r.0 == app
    ensures r.1 ==> && !r.0.recognizeEnabled
                    && r.0.store.stats.totalRecognitions == app.store.stats.totalRecognitions + 1
                    && r.0.store.stats.correctGuesses == app.store.stats.correctGuesses
                    && r.0.store.stats.animalsUnlocked == |app.store.unlocked|
                    && LoadStats(r.0.store.disk.statsFile) == r.0.store.stats
                    && r.0.store.unlocked == app.store.unlocked
                    && r.0.store.disk.unlockedFile == app.store.disk.unlockedFile
                    && r.0.processed == app.processed && r.0.model == app.model
                    && r.0.classNames == app.classNames && r.0.currentPath == app.currentPath
    ensures Valid(app) ==> Valid(r.0)
  {
    if !HasPicture(app) then (app, false)
    else
      var stats := app.store.stats.(totalRecognitions := app.store.stats.totalRecognitions + 1);
      (app.(recognizeEnabled := false, store := SaveStats(app.store.(stats := stats))), true)
  }

  datatype RecognitionError =
    | ModelUnavailable
    | WrongShape(mismatch: ShapeMismatch)
    | NoPicture           // the worker's `except` branch: no processed picture to resize

  /** One line of the result text: label and confidence. */
  datatype Line = Line(name: string, confidence: real)

  datatype Recognized = Recognized(lines: seq<Line>, newlyUnlocked: Option<string>)

  datatype Step = Step(app: App, outcome: Result<Recognized, RecognitionError>)

  /** The result lines for a ranking `top` of `preds`. */
  function ResultLines(names: seq<string>, preds: seq<real>, top: seq<nat>): (lines: seq<Line>)
    requires forall i :: 0 <= i < |top| ==> top[i] < |preds|
    ensures |lines| == |top|
    ensures forall i :: 0 <= i < |top| ==> lines[i] == Line(LabelFor(names, top[i]), preds[top[i]])
  {
    seq(|top|, i requires 0 <= i < |top| => Line(LabelFor(names, top[i]), preds[top[i]]))
  }

  /**
   * The unlock rule on the winning index: the label at `top[0]` is added
   * when the label list reaches that index and the label is new; only then
   * are both files saved.
   */
  function UnlockTop(st: Store, names: seq<string>, top: seq<nat>): (r: (Store, Option<string>))
    ensures var added := |top| > 0 && top[0] < |names| && names[top[0]] !in st.unlocked;
            && (added ==> r.1 == Some(names[top[0]]) && r.0.unlocked == st.unlocked + {names[top[0]]})
            && (!added ==> r.1 == None && r.0 == st)
    ensures st.unlocked <= r.0.unlocked
    ensures r.1.Some? ==> && LoadUnlocked(r.0.disk.unlockedFile) == r.0.unlocked
                          && LoadStats(r.0.disk.statsFile) == r.0.stats
                          && r.0.stats == st.stats.(animalsUnlocked := |r.0.unlocked|)
  {
    if |top| > 0 && top[0] < |names| && names[top[0]] !in st.unlocked then
      var name := names[top[0]];
      (SaveStats(SaveUnlocked(st.(unlocked := st.unlocked + {name}))), Some(name))
    else (st, None)
  }

  /**
   * `perform_recognition` followed by the result or error display, which
   * re-enables the trigger. An unusable model gets exactly one reload
   * attempt; a tensor of the wrong shape is refused before the classifier
   * runs; otherwise the top three of `argsort(preds)` are listed and the
   * winner may be unlocked.
   */
  function PerformRecognition(app: App, attempt: LoadAttempt, classify: Image -> seq<real>,
                              argsort: seq<real> -> seq<nat>): (s: Step)
    requires forall p :: IsArgsort(p, argsort(p))
    ensures s.app.recognizeEnabled
    ensures s.app.classNames == app.classNames && s.app.processed == app.processed
    ensures s.app.currentPath == app.currentPath
    ensures Usable(app.model) ==> s.app.model == app.model
    ensures !Usable(app.model) ==> s.app.model == LoadModel(app.model, attempt)
    ensures s.outcome == Err(ModelUnavailable) <==> !Usable(s.app.model)
    ensures s.outcome.Err? ==> s.app.store == app.store
    ensures app.store.unlocked <= s.app.store.unlocked
    ensures s.outcome.Ok? ==> app.processed.Some?
                              && |s.outcome.value.lines| == Min(3, |classify(Resize(app.processed.value, ImgSize))|)
    ensures Valid(app) ==> Valid(s.app)
  {
    var model := if Usable(app.model) then app.model else LoadModel(app.model, attempt);
    var done := app.(model := model, recognizeEnabled := true);
    if !Usable(model) then Step(done, Err(ModelUnavailable))
    else if app.processed.None? then Step(done, Err(NoPicture))
    else match ModelInput(app.processed.value)
      case Err(mismatch) => Step(done, Err(WrongShape(mismatch)))
      case Ok(input) =>
        var preds := classify(input);
        var top := TopIndices(argsort(preds), 3);
        TopIndicesRanked(preds, argsort(preds), 3);
        var (store, unlocked) := UnlockTop(app.store, app.classNames, top);
        Step(done.(store := store), Ok(Recognized(ResultLines(app.classNames, preds, top), unlocked)))
  }

  // ------------------------------------------------------------ properties

  /**
   * Still unusable after the one reload: the outcome is an error, nothing
   * in the progress changes, and the classifier's behaviour is irrelevant
   * (it is never run).
   */
  lemma ReloadFailureIsError(app: App, attempt: LoadAttempt, classify1: Image -> seq<real>,
                             classify2: Image -> seq<real>, argsort: seq<real> -> seq<nat>)
    requires forall p :: IsArgsort(p, argsort(p))
    requires !Usable(app.model) && !Usable(LoadModel(app.model, attempt))
    ensures PerformRecognition(app, attempt, classify1, argsort).outcome == Err(ModelUnavailable)
    ensures PerformRecognition(app, attempt, classify1, argsort).app.store == app.store
    ensures PerformRecognition(app, attempt, classify1, argsort) == PerformRecognition(app, attempt, classify2, argsort)
  {
  }

  /**
   * A processed picture whose tensor is not `(1, 456, 456, 3)` is refused
   * with both shapes named, before the classifier runs.
   */
  lemma ShapeMismatchIsError(app: App, attempt: LoadAttempt, classify1: Image -> seq<real>,
                             classify2: Image -> seq<real>, argsort: seq<real> -> seq<nat>)
    requires forall p :: IsArgsort(p, argsort(p))
    requires Usable(app.model) && app.processed.Some? && Channels(app.processed.value.mode) != 3
    ensures var s := PerformRecognition(app, attempt, classify1, argsort);
            && s.outcome.Err? && s.outcome.error.WrongShape?
            && s.outcome.error.mismatch.expected == [1, 456, 456, 3]
            && s.outcome.error.mismatch.actual == [1, 456, 456, Channels(app.processed.value.mode)]
            && s.app.store == app.store
    ensures PerformRecognition(app, attempt, classify1, argsort) == PerformRecognition(app, attempt, classify2, argsort)
  {
  }

  /** In a valid app state the shape check never fires. */
  lemma ValidAppPassesShapeCheck(app: App, attempt: LoadAttempt, classify: Image -> seq<real>,
                                 argsort: seq<real> -> seq<nat>)
    requires forall p :: IsArgsort(p, argsort(p))
    requires Valid(app)
    ensures !PerformRecognition(app, attempt, classify, argsort).outcome.Err?
            || !PerformRecognition(app, attempt, classify, argsort).outcome.error.WrongShape?
  {
  }

  /** The successful path of a recognition, spelled out once for the lemmas below. */
  lemma RecognitionUnfold(app: App, attempt: LoadAttempt, classify: Image -> seq<real>,
                          argsort: seq<real> -> seq<nat>)
    requires forall p :: IsArgsort(p, argsort(p))
    requires Usable(app.model) && app.processed.Some? && app.processed.value.mode == RGB
    ensures var preds := classify(Resize(app.processed.value, ImgSize));
            var top := TopIndices(argsort(preds), 3);
            && IsTopK(preds, top, 3)
            && PerformRecognition(app, attempt, classify, argsort)
               == Step(app.(recognizeEnabled := true, store := UnlockTop(app.store, app.classNames, top).0),
                       Ok(Recognized(ResultLines(app.classNames, preds, top),
                                     UnlockTop(app.store, app.classNames, top).1)))
  {
    var preds := classify(Resize(app.processed.value, ImgSize));
    TopIndicesRanked(preds, argsort(preds), 3);
  }

  /**
   * A successful recognition lists a top-3 ranking of the classifier's
   * output, each line labelled through the label list with that index's
   * confidence, and its first line carries the largest confidence.
   */
  lemma RecognitionRanking(app: App, attempt: LoadAttempt, classify: Image -> seq<real>,
                           argsort: seq<real> -> seq<nat>)
    requires forall p :: IsArgsort(p, argsort(p))
    requires Usable(app.model) && app.processed.Some? && app.processed.value.mode == RGB
    ensures var s := PerformRecognition(app, attempt, classify, argsort);
            var preds := classify(Resize(app.processed.value, ImgSize));
            var top := TopIndices(argsort(preds), 3);
            && IsTopK(preds, top, 3)
            && s.outcome.Ok?
            && |s.outcome.value.lines| == Min(3, |preds|)
            && (forall i :: 0 <= i < |top| ==>
                  s.outcome.value.lines[i] == Line(LabelFor(app.classNames, top[i]), preds[top[i]]))
            && (|preds| > 0 ==> forall x :: 0 <= x < |preds| ==> preds[x] <= s.outcome.value.lines[0].confidence)
  {
    RecognitionUnfold(app, attempt, classify, argsort);
    var preds := classify(Resize(app.processed.value, ImgSize));
    var top := TopIndices(argsort(preds), 3);
    if |preds| > 0 {
      TopFirstIsMaximal(preds, top, 3);
    }
  }

  /**
   * The unlock rule of a successful recognition: the unlocked set grows by
   * exactly the winner's label when the label list reaches the winning
   * index and is otherwise unchanged; the files are written only when that
   * label is new, and then they hold the new set and a matching count.
   */
  lemma RecognitionUnlock(app: App, attempt: LoadAttempt, classify: Image -> seq<real>,
                          argsort: seq<real> -> seq<nat>)
    requires forall p :: IsArgsort(p, argsort(p))
    requires Usable(app.model) && app.processed.Some? && app.processed.value.mode == RGB
    ensures var s := PerformRecognition(app, attempt, classify, argsort);
            var preds := classify(Resize(app.processed.value, ImgSize));
            var top := TopIndices(argsort(preds), 3);
            var winner := |top| > 0 && top[0] < |app.classNames|;
            && s.outcome.Ok?
            && (winner ==> s.app.store.unlocked == app.store.unlocked + {app.classNames[top[0]]})
            && (!winner ==> s.app.store.unlocked == app.store.unlocked)
            && (s.outcome.value.newlyUnlocked.Some? <==> winner && app.classNames[top[0]] !in app.store.unlocked)
            && (s.outcome.value.newlyUnlocked.None? ==> s.app.store == app.store)
            && (s.outcome.value.newlyUnlocked.Some? ==>
                  && LoadUnlocked(s.app.store.disk.unlockedFile) == s.app.store.unlocked
                  && s.app.store.stats.animalsUnlocked == |s.app.store.unlocked|)
  {
    RecognitionUnfold(app, attempt, classify, argsort);
  }

  /**
   * The example of a three-label model: labels cat, dog, fox and confidences
   * 0.1, 0.7, 0.2 give the lines dog, fox, cat whichever argsort is used,
   * and dog is unlocked when it was not yet.
   */
  lemma CatDogFoxExample(app: App, attempt: LoadAttempt, classify: Image -> seq<real>,
                         argsort: seq<real> -> seq<nat>)
    requires forall p :: IsArgsort(p, argsort(p))
    requires Usable(app.model) && app.processed.Some? && app.processed.value.mode == RGB
    requires app.classNames == ["cat", "dog", "fox"] && "dog" !in app.store.unlocked
    requires classify(Resize(app.processed.value, ImgSize)) == [0.1, 0.7, 0.2]
    ensures var s := PerformRecognition(app, attempt, classify, argsort);
            && s.outcome == Ok(Recognized([Line("dog", 0.7), Line("fox", 0.2), Line("cat", 0.1)], Some("dog")))
            && s.app.store.unlocked == app.store.unlocked + {"dog"}
  {
    var p: seq<real> := [0.1, 0.7, 0.2];
    var a := argsort(p);
    assert IsArgsort(p, a);
    assert 0 in a && 1 in a && 2 in a;
    assert a == [0, 2, 1] by {
      assert p[a[0]] <= p[a[1]] <= p[a[2]];
      assert a[0] < 3 && a[1] < 3 && a[2] < 3;
      assert a[0] != a[1] && a[1] != a[2] && a[0] != a[2];
    }
    var top := TopIndices(a, 3);
    assert top == [1, 2, 0];
    RecognitionUnfold(app, attempt, classify, argsort);
    var lines := ResultLines(app.classNames, p, top);
    assert lines[0] == Line("dog", 0.7);
    assert lines[1] == Line("fox", 0.2);
    assert lines[2] == Line("cat", 0.1);
    assert lines == [Line("dog", 0.7), Line("fox", 0.2), Line("cat", 0.1)];
    assert UnlockTop(app.store, app.classNames, top).1 == Some("dog");
  }

  /**
   * A whole press of the trigger: the counter goes up by exactly one when a
   * picture is selected, whatever the recognition then does, and the
   * unlocked set never shrinks.
   */
  function Recognize(app: App, attempt: LoadAttempt, classify: Image -> seq<real>,
                     argsort: seq<real> -> seq<nat>): (s: Option<Step>)
    requires forall p :: IsArgsort(p, argsort(p))
    ensures s.None? <==> !HasPicture(app)
    ensures s.Some? ==> && s.value.app.store.stats.totalRecognitions == app.store.stats.totalRecognitions + 1
                        && s.value.app.store.stats.correctGuesses == app.store.stats.correctGuesses
                        && app.store.unlocked <= s.value.app.store.unlocked
                        && s.value.app.recognizeEnabled
    ensures s.Some? && Valid(app) ==> Valid(s.value.app)
  {
    var (started, ok) := StartRecognition(app);
    if !ok then None
    else
      var s := PerformRecognition(started, attempt, classify, argsort);
      assert s.app.store.stats.totalRecognitions == started.store.stats.totalRecognitions by {
        if s.outcome.Ok? {
          var preds := classify(Resize(started.processed.value, ImgSize));
          TopIndicesRanked(preds, argsort(preds), 3);
        }
      }
      Some(s)
  }
}

=== FILE: text.dfy ===
/**
 * The string operations the scripts borrow from Python: `str.strip()`,
 * `file.readlines()`, `str.lower()`, `str.endswith()` and `str(int)`.
 */
module Text {

  /** Python's `str.isspace()` for one character. */
  predicate IsSpace(c: char) {
    || c == ' ' || c == '\t' || c == '\n' || c == '\r'
    || c == '\U{000B}' || c == '\U{000C}'
    || ('\U{001C}' <= c <= '\U{001F}')
    || c == '\U{0085}' || c == '\U{00A0}' || c == '\U{1680}'
    || ('\U{2000}' <= c <= '\U{200A}')
    || c == '\U{2028}' || c == '\U{2029}' || c == '\U{202F}'
    || c == '\U{205F}' || c == '\U{3000}'
  }

  /** A string with no whitespace at either end: what `strip()` returns. */
  predicate Stripped(s: string) {
    |s| == 0 || (!IsSpace(s[0]) && !IsSpace(s[|s| - 1]))
  }

  /** `lstrip()`: drops the leading whitespace and nothing else. */
  function TrimStart(s: string): (r: string)
    ensures |r| <= |s| && r == s[|s| - |r|..]
    ensures |r| == 0 || !IsSpace(r[0])
    ensures forall k :: 0 <= k < |s| - |r| ==> IsSpace(s[k])
  {
    if |s| > 0 && IsSpace(s[0]) then TrimStart(s[1..]) else s
  }

  /** `rstrip()`: drops the trailing whitespace and nothing else. */
  function TrimEnd(s: string): (r: string)
    ensures |r| <= |s| && r == s[..|r|]
    ensures |r| == 0 || !IsSpace(r[|r| - 1])
    ensures forall k :: |r| <= k < |s| ==> IsSpace(s[k])
  {
    if |s| > 0 && IsSpace(s[|s| - 1]) then TrimEnd(s[..|s| - 1]) else s
  }

  /** The number of whitespace characters `s` starts with. */
  function LeadingSpace(s: string): (n: nat)
    ensures n <= |s|
    ensures forall k :: 0 <= k < n ==> IsSpace(s[k])
    ensures n == |s| || !IsSpace(s[n])
  {
    if |s| > 0 && IsSpace(s[0]) then 1 + LeadingSpace(s[1..]) else 0
  }

  /**
   * `strip()`: the result begins right after the leading whitespace of `s`
   * and runs on as a prefix of the rest, everything cut off after it is
   * whitespace, and the result has no whitespace at either end.
   */
  function Strip(s: string): (r: string)
    ensures Stripped(r)
    ensures LeadingSpace(s) + |r| <= |s|
    ensures r <= s[LeadingSpace(s)..]
    ensures forall k :: LeadingSpace(s) + |r| <= k < |s| ==> IsSpace(s[k])
  {
    var t := TrimStart(s);
    var r := TrimEnd(t);
    StripPieces(s, t, r);
    r
  }

  lemma StripPieces(s: string, t: string, r: string)
    requires t == TrimStart(s) && r == TrimEnd(t)
    ensures LeadingSpace(s) + |r| <= |s|
    ensures r <= s[LeadingSpace(s)..]
    ensures forall k :: LeadingSpace(s) + |r| <= k < |s| ==> IsSpace(s[k])
  {
    TrimStartLength(s);
    var n := LeadingSpace(s);
    assert t == s[n..];
    assert |r| <= |t| && r == t[..|r|];
    TrailingCut(s, t, n, |r|);
  }

  lemma TrailingCut(s: string, t: string, n: nat, m: nat)
    requires n <= |s| && t == s[n..] && m <= |t|
    requires forall k :: m <= k < |t| ==> IsSpace(t[k])
    ensures forall k :: n + m <= k < |s| ==> IsSpace(s[k])
  {
    forall k | n + m <= k < |s|
      ensures IsSpace(s[k])
    {
      assert s[k] == t[k - n];
    }
  }

  lemma {:induction false} TrimStartLength(s: string)
    ensures |TrimStart(s)| == |s| - LeadingSpace(s)
  {
    if |s| > 0 && IsSpace(s[0]) {
      TrimStartLength(s[1..]);
    }
  }

  lemma TrimStartOfStripped(s: string)
    requires |s| == 0 || !IsSpace(s[0])
    ensures TrimStart(s) == s
  {
  }

  lemma TrimEndOfStripped(s: string)
    requires |s| == 0 || !IsSpace(s[|s| - 1])
    ensures TrimEnd(s) == s
  {
  }

  /** Stripping a string that already has no whitespace at its ends changes nothing. */
  lemma StripIdempotent(s: string)
    requires Stripped(s)
    ensures Strip(s) == s
  {
    TrimStartOfStripped(s);
    TrimEndOfStripped(s);
  }

  /** A line as `readlines()` returns it: `entry` followed by its line break. */
  lemma StripLine(entry: string)
    requires Stripped(entry)
    ensures Strip(entry + "\n") == entry
  {
    var s := entry + "\n";
    if |entry| == 0 {
      assert TrimStart(s) == TrimStart(s[1..]);
      assert s[1..] == [];
    } else {
      TrimStartOfStripped(s);
      assert s[..|s| - 1] == entry;
      assert TrimEnd(s) == TrimEnd(entry);
      TrimEndOfStripped(entry);
    }
  }

  // ---------------------------------------------------------------- readlines

  /** Joins a list of strings end to end. */
  function Concat(ls: seq<string>): string {
    if |ls| == 0 then [] else ls[0] + Concat(ls[1..])
  }

  /** Length of the first line of `t`, its line break included. */
  function LineLength(t: string): (k: nat)
    requires |t| > 0
    ensures 0 < k <= |t|
    ensures forall i :: 0 <= i < k - 1 ==> t[i] != '\n'
    ensures t[k - 1] == '\n' || k == |t|
  {
    if t[0] == '\n' || |t| == 1 then 1 else 1 + LineLength(t[1..])
  }

  /**
   * `readlines()` on text already in memory: the text is cut after every
   * line break, the break stays with its line, and a final line without a
   * break is kept; an empty text has no lines.
   */
  function ReadLines(t: string): (r: seq<string>)
    ensures Concat(r) == t
    ensures forall i :: 0 <= i < |r| ==> |r[i]| > 0
    ensures forall i :: 0 <= i < |r| - 1 ==> r[i][|r[i]| - 1] == '\n'
    ensures forall i, j :: 0 <= i < |r| && 0 <= j < |r[i]| - 1 ==> r[i][j] != '\n'
    decreases |t|
  {
    if |t| == 0 then []
    else
      var k := LineLength(t);
      var rest := ReadLines(t[k..]);
      assert t[..k] + t[k..] == t;
      [t[..k]] + rest
  }

  /** A label list written out one label per line, each line ending in a break. */
  function RenderLines(labels: seq<string>): string {
    if |labels| == 0 then [] else labels[0] + "\n" + RenderLines(labels[1..])
  }

  predicate NoLineBreak(s: string) {
    forall i :: 0 <= i < |s| ==> s[i] != '\n'
  }

  lemma {:induction false} LineLengthAfter(entry: string, rest: string)
    requires NoLineBreak(entry)
    ensures LineLength(entry + "\n" + rest) == |entry| + 1
    decreases |entry|
  {
    var t := entry + "\n" + rest;
    if |entry| > 0 {
      assert t[1..] == entry[1..] + "\n" + rest;
      LineLengthAfter(entry[1..], rest);
    }
  }

  /** `readlines()` recovers exactly the lines that were written out. */
  lemma {:induction false} ReadLinesOfRendered(labels: seq<string>)
    requires forall i :: 0 <= i < |labels| ==> NoLineBreak(labels[i])
    ensures ReadLines(RenderLines(labels)) == seq(|labels|, i requires 0 <= i < |labels| => labels[i] + "\n")
  {
    if |labels| > 0 {
      var t := RenderLines(labels);
      var rest := RenderLines(labels[1..]);
      assert t == labels[0] + "\n" + rest;
      LineLengthAfter(labels[0], rest);
      var k := |labels[0]| + 1;
      assert t[..k] == labels[0] + "\n";
      assert t[k..] == rest;
      ReadLinesOfRendered(labels[1..]);
    }
  }

  /**
   * The label file as both scripts read it: one entry per line of
   * `readlines()`, each stripped of surrounding whitespace; blank lines stay
   * as empty labels.
   */
  function ParseLabels(t: string): (labels: seq<string>)
    ensures |labels| == |ReadLines(t)|
    ensures forall i :: 0 <= i < |labels| ==> Stripped(labels[i]) && labels[i] == Strip(ReadLines(t)[i])
  {
    var lines := ReadLines(t);
    seq(|lines|, i requires 0 <= i < |lines| => Strip(lines[i]))
  }

  /** Writing labels one per line and reading the file back gives the same labels, blank ones included. */
  lemma LabelFileRoundTrip(labels: seq<string>)
    requires forall i :: 0 <= i < |labels| ==> Stripped(labels[i]) && NoLineBreak(labels[i])
    ensures ParseLabels(RenderLines(labels)) == labels
  {
    ReadLinesOfRendered(labels);
    forall i | 0 <= i < |labels|
      ensures ParseLabels(RenderLines(labels))[i] == labels[i]
    {
      StripLine(labels[i]);
    }
  }

  /** A blank line in the middle of the file becomes an empty label. */
  lemma BlankLineKept()
    ensures ParseLabels("cat\n\ndog\n") == ["cat", "", "dog"]
  {
    var labels := ["cat", "", "dog"];
    assert RenderLines(labels) == "cat\n\ndog\n" by {
      assert RenderLines(labels[2..]) == "dog\n";
      assert RenderLines(labels[1..]) == "\ndog\n";
    }
    LabelFileRoundTrip(labels);
  }

  // ---------------------------------------------------------------- case

  /** `str.lower()` on one character; only ASCII capitals change. */
  function LowerChar(c: char): char {
    if 'A' <= c <= 'Z' then (c as int + 32) as char else c
  }

  /**
   * `str.lower()` restricted to ASCII: no capital letter is left, each
   * capital becomes the small letter 32 code points above it, and every
   * other character is kept where it was.
   */
  function Lower(s: string): (r: string)
    ensures |r| == |s|
    ensures forall i :: 0 <= i < |r| ==> !('A' <= r[i] <= 'Z')
    ensures forall i :: 0 <= i < |s| && 'A' <= s[i] <= 'Z' ==> 'a' <= r[i] <= 'z' && r[i] as int == s[i] as int + 32
    ensures forall i :: 0 <= i < |s| && !('A' <= s[i] <= 'Z') ==> r[i] == s[i]
  {
    seq(|s|, i requires 0 <= i < |s| => LowerChar(s[i]))
  }

  /** Lower-casing a lower-cased text changes nothing. */
  lemma LowerIdempotent(s: string)
    ensures Lower(Lower(s)) == Lower(s)
  {
  }

  lemma LowerConcat(a: string, b: string)
    ensures Lower(a + b) == Lower(a) + Lower(b)
  {
  }

  /** `str.endswith(suffix)`. */
  predicate EndsWith(s: string, suffix: string) {
    |suffix| <= |s| && s[|s| - |suffix|..] == suffix
  }

  // ---------------------------------------------------------------- str(int)

  predicate IsDigit(c: char) {
    '0' <= c <= '9'
  }

  function DigitChar(d: nat): (c: char)
    requires d < 10
    ensures IsDigit(c) && c as int - '0' as int == d
  {
    (d + '0' as int) as char
  }

  function DigitValue(c: char): (d: nat)
    requires IsDigit(c)
    ensures d < 10 && c == DigitChar(d)
  {
    c as int - '0' as int
  }

  /** The value of a string of decimal digits. */
  function DecimalValue(s: string): nat
    requires forall i :: 0 <= i < |s| ==> IsDigit(s[i])
  {
    if |s| == 0 then 0
    else DecimalValue(s[..|s| - 1]) * 10 + DigitValue(s[|s| - 1])
  }

  /** `str(n)` for a non-negative integer: its decimal digits, no leading zero. */
  function NatToString(n: nat): (s: string)
    ensures |s| > 0
    ensures forall i :: 0 <= i < |s| ==> IsDigit(s[i])
    ensures |s| > 1 ==> s[0] != '0'
  {
    if n < 10 then [DigitChar(n)] else NatToString(n / 10) + [DigitChar(n % 10)]
  }

  /** Reading the digits back gives the number: `int(str(n)) == n`. */
  lemma {:induction false} DecimalRoundTrip(n: nat)
    ensures DecimalValue(NatToString(n)) == n
  {
    var s := NatToString(n);
    if n >= 10 {
      assert s[..|s| - 1] == NatToString(n / 10);
      DecimalRoundTrip(n / 10);
    }
  }

  /** Different numbers print differently. */
  lemma NatToStringInjective(m: nat, n: nat)
    requires NatToString(m) == NatToString(n)
    ensures m == n
  {
    DecimalRoundTrip(m);
    DecimalRoundTrip(n);
  }
}

=== FILE: training.dfy ===
/**
 * The two pure helpers of the training script: the piecewise learning-rate
 * schedule and the per-class "main misclassification" summary drawn from a
 * row of the confusion matrix. `math.exp` is a parameter of the model.
 */
module Training {
  import opened Wrappers
  import opened Ranking

  // ------------------------------------------------------------ learning rate

  const WarmupEpochs: nat := 3
  const DecayStart: nat := 10

  /**
   * `accelerated_lr_schedule`: a linear warm-up over the first three epochs,
   * the initial rate up to epoch ten, then exponential decay by a factor
   * `exp(-0.1)` per epoch. A non-negative initial rate gives non-negative
   * rates no higher than itself before the decay starts.
   */
  function LrSchedule(epoch: nat, initialLr: real, exp: real -> real): (lr: real)
    ensures initialLr >= 0.0 && epoch < DecayStart ==> 0.0 < lr || initialLr == 0.0
    ensures initialLr >= 0.0 && epoch < DecayStart ==> lr <= initialLr
  {
    if epoch < WarmupEpochs then
      WarmupSteps(epoch, initialLr);
      initialLr * (epoch + 1) as real / WarmupEpochs as real
    else if epoch < DecayStart then initialLr
    else initialLr * exp(0.1 * (DecayStart - epoch) as real)
  }

  /** The three warm-up rates, one third of the initial rate apart. */
  lemma WarmupSteps(epoch: nat, initialLr: real)
    requires epoch < WarmupEpochs
    ensures var w := initialLr * (epoch + 1) as real / WarmupEpochs as real;
            && (epoch == 0 ==> w == initialLr / 3.0)
            && (epoch == 1 ==> w == 2.0 * initialLr / 3.0)
            && (epoch == 2 ==> w == initialLr)
  {
  }

  /** The warm-up ends on exactly the initial rate: epoch 2 already uses it. */
  lemma WarmupEndsAtInitial(initialLr: real, exp: real -> real)
    ensures LrSchedule(0, initialLr, exp) == initialLr / 3.0
    ensures LrSchedule(1, initialLr, exp) == 2.0 * initialLr / 3.0
    ensures LrSchedule(2, initialLr, exp) == initialLr
  {
  }

  /** Between the warm-up and the decay the rate is the initial rate itself. */
  lemma PlateauIsInitial(epoch: nat, initialLr: real, exp: real -> real)
    requires WarmupEpochs <= epoch < DecayStart
    ensures LrSchedule(epoch, initialLr, exp) == initialLr
  {
  }

  /** Up to epoch ten the schedule never goes down. */
  lemma ScheduleRises(e1: nat, e2: nat, initialLr: real, exp: real -> real)
    requires initialLr >= 0.0
    requires e1 <= e2 < DecayStart
    ensures LrSchedule(e1, initialLr, exp) <= LrSchedule(e2, initialLr, exp)
  {
    if e2 < WarmupEpochs {
      WarmupSteps(e1, initialLr);
      WarmupSteps(e2, initialLr);
    }
  }

  lemma MulMonotone(a: real, x: real, y: real)
    requires a >= 0.0 && x <= y
    ensures a * x <= a * y
  {
  }

  /** The decay branch joins the plateau without a jump, since `exp(0) == 1`. */
  lemma DecayStartsAtInitial(initialLr: real, exp: real -> real)
    requires exp(0.0) == 1.0
    ensures LrSchedule(DecayStart, initialLr, exp) == initialLr
    ensures LrSchedule(DecayStart, initialLr, exp) == LrSchedule(DecayStart - 1, initialLr, exp)
  {
  }

  /**
   * Given only that `exp` maps non-positive arguments into `[0, 1]`, no epoch
   * ever uses a rate above the initial one.
   */
  lemma NeverAboveInitial(epoch: nat, initialLr: real, exp: real -> real)
    requires initialLr >= 0.0
    requires forall x :: x <= 0.0 ==> 0.0 <= exp(x) <= 1.0
    ensures 0.0 <= LrSchedule(epoch, initialLr, exp) <= initialLr
  {
    if epoch >= DecayStart {
      var f := exp(0.1 * (DecayStart - epoch) as real);
      assert 0.0 <= f <= 1.0;
      MulMonotone(initialLr, f, 1.0);
      MulMonotone(initialLr, 0.0, f);
    }
  }

  // ------------------------------------------------------------ main error

  /** Sum of a sequence of counts, `np.sum`. */
  function Sum(s: seq<nat>): nat {
    if |s| == 0 then 0 else s[0] + Sum(s[1..])
  }

  lemma {:induction false} EntryAtMostSum(s: seq<nat>, k: nat)
    requires k < |s|
    ensures s[k] <= Sum(s)
  {
    if k > 0 {
      EntryAtMostSum(s[1..], k - 1);
    }
  }

  lemma {:induction false} SumZeroIff(s: seq<nat>)
    ensures Sum(s) == 0 <==> forall k :: 0 <= k < |s| ==> s[k] == 0
  {
    if |s| > 0 {
      SumZeroIff(s[1..]);
      assert forall k :: 1 <= k < |s| ==> s[k] == s[1..][k - 1];
    }
  }

  /** The confidence-free view of a count row, so that `np.argmax` can be shared. */
  function AsReals(s: seq<nat>): (r: seq<real>)
    ensures |r| == |s|
    ensures forall k :: 0 <= k < |s| ==> r[k] == s[k] as real
  {
    seq(|s|, k requires 0 <= k < |s| => s[k] as real)
  }

  /** The name reported when a class is never mistaken for another. */
  const NoError := "无错误"

  /**
   * One class's main misclassification: the index of the most frequent
   * wrong prediction (if any), its name, its count and its share of all
   * wrong predictions in percent.
   */
  datatype MainErrorSummary = MainErrorSummary(index: Option<nat>, className: string, count: nat, percent: real)

  /**
   * The metrics loop for class `i`: zero the diagonal entry of row `i` of the
   * confusion matrix and, unless nothing is left, take the first largest
   * remaining entry.
   */
  function MainError(row: seq<nat>, i: nat, names: seq<string>): (r: MainErrorSummary)
    requires i < |row| == |names|
    ensures r.index.None? <==> forall j :: 0 <= j < |row| && j != i ==> row[j] == 0
    ensures r.index.None? ==> r.className == NoError && r.count == 0 && r.percent == 0.0
    ensures r.index.Some? ==>
              var m := r.index.value;
              && m < |row| && m != i
              && r.className == names[m] && r.count == row[m] > 0
              && (forall j :: 0 <= j < |row| && j != i ==> row[j] <= row[m])
              && (forall j :: 0 <= j < m && j != i ==> row[j] < row[m])
              && 0.0 < r.percent <= 100.0
  {
    var errors := row[i := 0];
    SumZeroIff(errors);
    assert forall j :: 0 <= j < |row| && j != i ==> errors[j] == row[j];
    if Sum(errors) > 0 then
      var m := ArgMax(AsReals(errors));
      FirstLargestError(row, i, m);
      EntryAtMostSum(errors, m);
      ShareInPercent(errors[m], Sum(errors));
      MainErrorSummary(Some(m), names[m], errors[m], errors[m] as real / Sum(errors) as real * 100.0)
    else
      MainErrorSummary(None, NoError, 0, 0.0)
  }

  /** `np.argmax` of the row with its diagonal zeroed, restated on the row itself. */
  lemma FirstLargestError(row: seq<nat>, i: nat, m: nat)
    requires i < |row|
    requires Sum(row[i := 0]) > 0
    requires m == ArgMax(AsReals(row[i := 0]))
    ensures m < |row| && m != i && row[m] > 0
    ensures forall j :: 0 <= j < |row| && j != i ==> row[j] <= row[m]
    ensures forall j :: 0 <= j < m && j != i ==> row[j] < row[m]
  {
    var errors := row[i := 0];
    var p := AsReals(errors);
    SumZeroIff(errors);
    var k :| 0 <= k < |errors| && errors[k] != 0;
    assert p[k] <= p[m];
    forall j | 0 <= j < |row| && j != i
      ensures row[j] <= row[m]
    {
      assert p[j] <= p[m];
    }
    forall j | 0 <= j < m && j != i
      ensures row[j] < row[m]
    {
      assert p[j] < p[m];
    }
  }

  /** A positive count out of a total it does not exceed is a share in `(0, 100]` percent. */
  lemma ShareInPercent(count: nat, total: nat)
    requires 0 < count <= total
    ensures 0.0 < count as real / total as real * 100.0 <= 100.0
  {
    var share := count as real / total as real;
    assert share * total as real == count as real;
    assert 0.0 < share <= 1.0;
  }

  /** A row with a single wrong prediction elsewhere names that class at 100 percent. */
  lemma SingleMistakeExample()
    ensures MainError([5, 1, 0], 0, ["cat", "dog", "fox"]) == MainErrorSummary(Some(1), "dog", 1, 100.0)
    ensures MainError([0, 7, 0], 1, ["cat", "dog", "fox"]) == MainErrorSummary(None, NoError, 0, 0.0)
  {
    var e := [5, 1, 0][0 := 0];
    assert e == [0, 1, 0];
    assert Sum([0]) == 0 && Sum([1, 0]) == 1;
    assert e[1..] == [1, 0] && e[1..][1..] == [0];
    assert Sum(e) == 1;
    assert AsReals(e) == [0.0, 1.0, 0.0];
    ArgMaxUnique(AsReals(e), 1);
    assert [0, 7, 0][1 := 0] == [0, 0, 0];
  }
}

=== FILE: wrappers.dfy ===
/** Failure-carrying datatypes shared by every component of the model. */
module Wrappers {

  /** A value that may be absent: Python's `None` or a present value. */
  datatype Option<+T> = None | Some(value: T)

  /** The outcome of an operation that can fail with an error the caller sees. */
  datatype Result<+R, +E> = Ok(value: R) | Err(error: E)
}
